=== FILE: README.md ===
# minio-py client core in Dafny

This project models the decision logic of the MinIO Python client (`minio/api.py` and
`minio/copy_conditions.py`) and proves properties about it. It does not model the
network, signing or XML parsing. It covers:

- **Response classification** (`_url_open`, `_handle_redirect_response`). One HTTP
  response becomes either the response itself or the exception the client raises:
  `InvalidResponseError`, `ServerError` or `S3Error` with a code and message. A
  `NoSuchBucket` or the internal `RetryHead` code evicts the bucket from the region cache.
- **Request execution** (`_execute`). The bucket's region is resolved once. The request
  is sent once more when the first reply is classified as `RetryHead`. A `RetryHead` on
  the retry is re-coded with retry disabled.
- **Region resolution** (`_get_region`, `make_bucket`). Resolution follows a precedence:
  1. an explicit region;
  2. the constructor's region;
  3. the default region `us-east-1`;
  4. the cache;
  5. a GetBucketLocation request, whose answer is cached.

  `make_bucket` checks its location against the constructor's region and caches the
  bucket's region.
- **Header and parameter computation**:
  - `_build_headers` selects the content hash and `Content-MD5`;
  - `get_object` builds the `Range` header;
  - `presigned_url` checks the expiry bound.
- **`put_object`**:
  - the reading loop over a byte stream, of known or unknown length, with the one-byte
    look-ahead and the short-read `IOError`;
  - the single-part shortcut;
  - lazy creation of the upload id;
  - sequential or pooled part uploads, with pooled results put back in part order;
  - completion with re-quoted ETags;
  - abort-then-re-raise.
- **Listing and bulk delete**:
  - the query of each page of `_list_objects` and the markers handed from page to page;
  - the batches of at most 1000 objects sent by `remove_objects`.
- **`CopyConditions`**: a string map with four setters, each writing one fixed
  `X-Amz-Copy-Source-*` header.

The client's mutable state is threaded through explicitly. The region cache
(`RegionMap`) goes in and out of every function that reads or changes it.

Python's optional strings are `string`, and `""` stands for `None` or a falsy value.
This applies to bucket and object names, the `x-amz-bucket-region` header, regions,
markers and the upload id.

Values the client obtains from code outside the model are parameters:

- the server's replies (`Response`, `Service`, `Page`);
- the parsed XML error (`Response.parsed`);
- the text of a location reply;
- digests and formatted dates;
- the verdicts of the name checks;
- `get_part_info`'s part size and count;
- the order in which the worker pool returns results.

Files: `errors.dfy` (Option, Result, the exception classes), `text.dfy` (split/join,
decimal rendering, quote stripping), `classify.dfy`, `region.dfy`, `execute.dfy`,
`headers.dfy`, `upload.dfy`, `listing.dfy`, `copy_conditions.dfy`.

## Model

| member | source | states |
|---|---|---|
| Classify.RedirectCode | minio/api.py:159-181 | 301/307/400 map to PermanentRedirect/Redirect/BadRequest with their messages. The message gets "; use region R" when the region header is present. Other statuses give no code. The code is RetryHead exactly when retry is set, the region header is present, the verb is HEAD, a bucket is named and the bucket is cached; a RetryHead has no message. |
| Classify.XmlTypeWithParameters | minio/api.py:299-304 | A content type `application/xml;…` with parameters passes the XML test. |
| Classify.XmlTypeExact | minio/api.py:299-304 | A content type without `;` passes the XML test exactly when it is `application/xml`. |
| Classify.SyntheticCode | minio/api.py:327-358 | With no XML error body, a code exists exactly for 301/307/400/403/404/405/409/501, or when the redirect handler yields RetryHead. |
| Classify.Unpack2 | minio/api.py:362 | Unpacking a tuple into two names succeeds iff the tuple has exactly two elements, and then gives them in order. Otherwise it raises ValueError. |
| Classify.SyntheticCodeAsWritten | minio/api.py:327-362 | Built from the table as written, where every entry is a two-element tuple except 409's one-element tuple, and the unpack into `code, message`: the unpack raises ValueError exactly on 409. On every other status it gives the intended table's pair. |
| Classify.EntriesAsWritten | minio/api.py:327-358 | Every entry of the table as written is a pair of strings equal to the intended entry, except 409's, which is a one-element tuple. |
| Classify.Conflict409Unpacks | minio/api.py:349-362 | For a 409 without a body the as-written table raises. The intended table yields NoSuchBucket when a bucket is named and ResourceConflict otherwise. |
| Classify.Open | minio/api.py:286-383 | Success iff the status is 200/204/206; the response then comes back unchanged. For a non-HEAD request, a non-XML content type or an empty body raises InvalidResponseError carrying the status, the reply's content type, and the body text exactly when there is one. Once these guards pass, a body that parses raises S3Error with the document's code, message, bucket and key, and one that does not parse raises the parser's error. A bodiless HEAD reply raises S3Error with the status table's code and message, or ServerError when the table has no code. The cache loses the bucket exactly when the exception is NoSuchBucket or RetryHead. A valid cache stays valid. |
| Classify.HeadWithoutBody | minio/api.py:337-368 | With no error body: 403 gives AccessDenied. 404 gives NoSuchKey when an object is named, else NoSuchBucket when a bucket is named, else ResourceNotFound. 405/501 give MethodNotAllowed. A status outside the table raises ServerError. |
| Classify.RetryHeadOnlyForCachedHead | minio/api.py:174-179 | Without an error body, a response is classified RetryHead iff it is a redirect status of a HEAD request to a cached bucket with a region hint. |
| Region.LocationRegion | minio/api.py:469-475 | Empty location text means us-east-1, `EU` means eu-west-1, anything else is taken literally. The result is never empty. |
| Region.GetRegion | minio/api.py:434-478 | The precedence: a conflicting explicit region raises ValueError, an explicit region wins, then the constructor region, then us-east-1 without a bucket or a provider, then the cached region. Exactly one location request is sent when all of these miss. Its answer is cached, or its error propagates with the cache exactly as classifying the failed reply left it. |
| Region.SecondResolutionHitsCache | minio/api.py:457-478 | Resolving the same bucket again after a successful resolution sends no request, returns the same region and leaves the cache as it is. |
| Region.LocationTextExamples | minio/api.py:469-475 | On a cache miss, the location texts "", "EU" and "ap-south-1" resolve to us-east-1, eu-west-1 and ap-south-1. |
| Region.MakeBucketRequest | minio/api.py:585-605 | Accepted iff the name is accepted and the location agrees with the constructor region (or either is absent). The location defaults to us-east-1. A LocationConstraint body is sent iff the region is not us-east-1. |
| Region.MakeBucket | minio/api.py:585-613 | A rejected request leaves the cache unchanged. Once the request is accepted, make_bucket succeeds iff CreateBucket returns a success status, and then caches the bucket under its region. A failing reply raises the error `_url_open` raises for it, with that call's cache. A valid cache stays valid. |
| Region.MadeBucketResolvesWithoutLookup | minio/api.py:606-613 | After `make_bucket` succeeds, resolving that bucket sends no location request. Without a constructor region it yields the region the bucket was created in. |
| Execute.Recode | minio/api.py:429-432 | `exc.copy(code, message)` keeps the bucket and object and replaces the code and message. |
| Execute.Run | minio/api.py:385-432 | At most two attempts, both to the same resolved region. No attempt iff region resolution fails, whose error and cache then surface. A second attempt iff the first reply is RetryHead. With one attempt, the outcome and cache are those of classifying the reply. With two, the cache is that of classifying the second reply, and so is the outcome, except that a second RetryHead is re-coded from the redirect table with retry disabled. Once a request was sent, the surfaced error is never RetryHead. A valid cache stays valid. |
| Execute.StaleRegionHeadScenario | minio/api.py:396-432 | A HEAD to a bucket cached in a stale region, answered 301 with a region hint twice, is sent twice to the stale region. It surfaces PermanentRedirect "Moved Permanently; use region us-west-2" and evicts the bucket. |
| Execute.MissingBucketScenario | minio/api.py:337-344 | A bodiless 404 on a HEAD surfaces NoSuchBucket and evicts the bucket when no object is named. With an object named it surfaces NoSuchKey and keeps the cache. |
| RequestHeaders.BuildHeaders | minio/api.py:183-210 | The caller's headers all survive. A header of any other name keeps the caller's value. Host, User-Agent and x-amz-date are always set. Content-Length parses back to the body length whenever the body is non-empty; for an empty body it is present, with the caller's value, exactly when the caller gave one. Nothing outside the seven managed names is added. |
| RequestHeaders.BuildHeadersDigests | minio/api.py:186-207 | With credentials, the payload hash is UNSIGNED-PAYLOAD over HTTPS and the SHA-256 over HTTP; without them the caller's value stands. A caller's Content-MD5 is kept. Otherwise an MD5 is added only without credentials or over HTTPS. The session token is sent whenever there is one. Whenever the payload hash, MD5 or session token is empty and so not due, that header is present, with the caller's value, exactly when the caller gave one. |
| RequestHeaders.Md5Settled | minio/api.py:186-203 | After one pass no MD5 remains to be computed: it was stored, or none is due. |
| RequestHeaders.BuildHeadersIdempotent | minio/api.py:185-207 | Building the headers again from their own output changes nothing, because the MD5 stored the first time counts as the caller's. |
| RequestHeaders.RangeHeader | minio/api.py:1086-1088 | No Range header iff offset and length are both zero. |
| RequestHeaders.RangeRoundTrip | minio/api.py:1086-1088 | The header parses back to `bytes=offset-(offset+length-1)`, or to an open-ended range from `offset` when the length is zero. |
| RequestHeaders.PresignExpiry | minio/api.py:1661-1662 | The expiry is accepted iff it lies between one second and seven days. The accepted value is the whole number of seconds. |
| RequestHeaders.WholeSecondsAccepted | minio/api.py:1661-1662 | Every whole number of seconds from 1 to 604800 is accepted unchanged. |
| Text.Split | minio/api.py:301-303 | `str.split`: the pieces contain no separator and join back to the input. |
| Text.DecimalRoundTrip | minio/api.py:193 | `str(n)` of a natural number is a digit string that parses back to n. |
| Text.StripQuotes | minio/api.py:1231 | The stripped ETag has no quote and is unchanged when it had none. |
| Text.StripQuoteRoundTrip | minio/api.py:1187 | Re-quoting a quote-free ETag and stripping it again gives the ETag back. |
| Upload.StreamPartsShape | minio/api.py:1320-1332 | The cut concatenates back to the stream. Every part but the last is full and the last is at most a part. For a non-empty stream, (count−1)·size < length ≤ count·size. |
| Upload.ExactMultipleParts | minio/api.py:1320-1332 | A stream of exactly k full parts is cut into k parts, not k+1. |
| Upload.ReadKnown | minio/api.py:1305-1319 | Known part count: the read succeeds iff the stream holds `length` bytes. Then there are part_count parts, all full but the last, and they concatenate to the first `length` bytes. Otherwise an IOError with got < expected follows the full parts already read. |
| Upload.ReadStream | minio/api.py:1320-1332 | Unknown length: reading part_size+1 bytes with the carried byte yields exactly the reference cut. |
| Upload.ReadParts | minio/api.py:1305-1334 | The loop combines both modes. A short read happens only in known mode, when the stream is shorter than `length`; the parts read before it are full parts of the stream's start. Without a short read the parts are the cut `PartsCut`: the reference cut StreamParts for an unknown length, otherwise `partCount` parts concatenating to the first `length` bytes with every part but the last `partSize` bytes. |
| Upload.PartsCutUnique | minio/api.py:1305-1334 | At most one part list meets the cut, so it fixes the parts sent. |
| Upload.EtagOf | minio/api.py:1216-1233 | The ETag returned has its quotes removed: the result holds no quote, an unquoted ETag is returned unchanged, and failures propagate. |
| Upload.EtagOfQuoted | minio/api.py:1232 | A quoted ETag comes back as the bare ETag the server quoted. |
| Upload.CompletedParts | minio/api.py:1351-1365 | The completion list numbers part i as i+1. |
| Upload.CompletionBodyRoundTrip | minio/api.py:1179-1187 | The re-quoted ETag sent for part i strips back to the ETag that part's upload returned. |
| Upload.PoolOrder | minio/api.py:1359-1362 | The pool hands back every submitted task exactly once. |
| Upload.ReadPartSlice | minio/api.py:1320-1322 | With the carried byte as prefix, reading part_size+1 bytes gives exactly the next part_size+1 bytes of the stream, or its rest. |
| Upload.ArrivalCoversParts | minio/api.py:1361-1365 | Every part number from 1 to part_count arrives among the pool's results. |
| Upload.Reassemble | minio/api.py:1361-1365 | Every result lands at index part_number−1, so the list is filled in ascending part order. |
| Upload.FirstFailure | minio/api.py:1359-1360 | `pool.result()` raises iff some task failed, and the exception is one raised by a task. |
| Upload.PoolFailureFromPart | minio/api.py:1359-1360 | An exception the pool reports is the exception of one part's UploadPart request. |
| Upload.PoolWithoutFailure | minio/api.py:1359-1365 | When the pool reports nothing, every part's UploadPart request succeeded. |
| Upload.PoolParts | minio/api.py:1359-1365 | Whatever the arrival order, the pooled list equals the sequential completion list. |
| Upload.SendParts | minio/api.py:1336-1357 | The upload id is created before the first part, once. Part i is sent as UploadPart i. Sequentially, the loop finishes only when every part's UploadPart succeeded. On a failed UploadPart it stops: the failing part was sent last, every earlier part succeeded, and its exception is raised. With a pool, only the create can fail here. |
| Upload.CollectPool | minio/api.py:1359-1365 | A pool failure is the failure of some part's upload. Without one, every upload succeeded and the completion list is the ascending list of part ETags. |
| Upload.AwaitParts | minio/api.py:1313-1365 | After the loop: a short read is raised first. Then a pool failure, which is some part's upload error. Otherwise every part's UploadPart succeeded and the completion list is the ascending list of part ETags. |
| Upload.UploadsTrace | minio/api.py:1334-1357 | Creating the upload and sending the first m parts gives a trace where position j holds UploadPart j with part j, with no abort and no whole-object upload. |
| Upload.UploadSeveral | minio/api.py:1334-1372 | For several parts the trace is a multipart trace. Success means no short read, every part's UploadPart succeeded, and the trace is exactly CreateUpload, UploadPart 1..n, CompleteUpload with the ascending ETags. The error is the short read or one raised by a request sent. |
| Upload.TryUpload | minio/api.py:1304-1372 | A single part is one PutObject with no upload id. Several parts give CreateUpload, UploadPart 1..n with the parts in order, then CompleteUpload with the ascending ETag list; success implies every UploadPart succeeded. The error is the short read or an exception raised by one of the requests sent. |
| Upload.UploadParts | minio/api.py:1304-1383 | The try block and the except branch together. One part read in full is sent as a single PutObject and nothing else; otherwise no PutObject is sent. An abort comes only last and only after a create. Success implies every UploadPart request succeeded, and a successful multipart upload is exactly CreateMultipartUpload, UploadPart 1..n with the parts read in order, then CompleteMultipartUpload with their ETags, and the result is CompleteMultipartUpload's reply. The error is the short read or one raised by a request; when the last request is an abort that raises, the error is the abort's. |
| Upload.PartsAreObject | minio/api.py:1305-1332 | The parts read without a short read concatenate to the object: the first `length` bytes, or the whole stream when the length is unknown. |
| Upload.Rethrow | minio/api.py:1376-1383 | With an upload id, an exception triggers exactly one abort and is re-raised. An exception from the abort itself replaces it. Without an upload id nothing is sent. |
| Upload.PutObject | minio/api.py:1251-1383 | A stream shorter than a declared length fails. When the object is read as one part (a part count of 1 with enough data, or an unknown length that fits one part) the only request is one PutObject of the object bytes; otherwise no PutObject is sent. Success implies every UploadPart request succeeded, and a successful multipart upload is exactly CreateMultipartUpload, UploadPart 1..n with the parts of the cut `PartsCut` in order (which concatenate to the object), then CompleteMultipartUpload with their ETags, and the result is CompleteMultipartUpload's reply. When the closing abort raises, its exception is the error. Any failure after the upload id exists ends with one abort and never aborts earlier. The surfaced error is the short read or one raised by a request. |
| Listing.ApiPart | minio/api.py:2346-2358 | `versions` iff listing versions. `list-type=2` iff list-v2. The continuation token, fetch-owner and user-metadata are sent only in list-v2, and only when set. |
| Listing.CommonPart | minio/api.py:2359-2363 | delimiter and prefix are always present (empty when absent). encoding-type is sent iff given. max-keys parses back to `max_keys or 1000`. |
| Listing.MarkerPart | minio/api.py:2364-2372 | The start marker goes under key-marker, marker or start-after according to the mode, and only when set. The version-id marker is sent iff set. |
| Listing.PageQuery | minio/api.py:2346-2372 | The page query is the union of the three disjoint parts. |
| Listing.PageQueryIdentifiesMode | minio/api.py:2346-2350 | The API a query speaks can be read back from it. A version-id marker appears iff one is pending. |
| Listing.NextMarkers | minio/api.py:2376-2383 | The next page starts after the returned marker. The version-id marker is kept only when listing versions. In list-v2 the returned marker becomes the continuation token. |
| Listing.Listing | minio/api.py:2344-2386 | Pages are requested until the first page that is not truncated: every page requested before the last was truncated, and when every page but the last is truncated, every page is requested. The first page is requested with the initial markers. |
| Listing.RequestedAt | minio/api.py:2374-2383 | The i-th page is requested with the markers handed on by the previous pages. |
| Listing.ListingYields | minio/api.py:2374-2386 | The objects yielded are the object lists of exactly the pages requested, concatenated in page order. |
| Listing.MarkersAt | minio/api.py:2376-2383 | The markers of page i>0 start after page i−1's marker. In list-v2 that marker is the continuation token; in a versions listing page i−1's version-id marker is handed on. Outside versions, no version-id marker ever appears. |
| Listing.ListingAt | minio/api.py:2344-2383 | The i-th request is the page query for the markers handed on by the previous pages. |
| Listing.ListingKeepsMode | minio/api.py:2341-2383 | Every page of a listing speaks the same API. Only a versions listing sends a version-id marker. |
| Listing.ListObjectsMode | minio/api.py:2341-2372 | The arguments select the API for every page. An initial version-id marker forces the versions listing. |
| Listing.ListingReaches | minio/api.py:2344-2386 | Page i is requested whenever every page before it came back truncated; with the stopping rule of Listing, exactly then. |
| Listing.ContinuesFromPreviousPage | minio/api.py:2352-2383 | In list-v2, every page after the first is requested (the earlier pages being truncated) and sends the previous page's returned marker as its continuation token. |
| Listing.VersionsResumeFromPreviousPage | minio/api.py:2364-2383 | In a versions listing, every page after the first is requested (the earlier pages being truncated) and sends the previous page's returned key marker and version-id marker, each when set. |
| Listing.Batches | minio/api.py:1579-1588 | The batches concatenate back to the objects. Each holds 1 to 1000 objects, all but the last exactly 1000, and there are ⌈n/1000⌉ of them. |
| Listing.RemoveObjects | minio/api.py:1579-1598 | One DeleteObjects request per batch, in order, and none for an empty list. Every request carries 1 to 1000 objects, all but the last exactly 1000. Without a failure every batch is sent and the errors yielded are each reply's errors, batch by batch. A request that raises is the last one sent; the errors of the earlier batches were yielded first and its exception ends the generator. |
| CopyConditions.Get | minio/copy_conditions.py:59-60 | A lookup returns the stored value, or KeyError iff the key is absent. |
| CopyConditions.Set | minio/copy_conditions.py:62-63 | Setting stores the value and keeps every other key. |
| CopyConditions.Delete | minio/copy_conditions.py:65-66 | Deleting removes exactly that key, or raises KeyError iff it is absent. |
| CopyConditions.Len | minio/copy_conditions.py:71-72 | The length is the number of stored keys, and zero only for the empty store. |
| CopyConditions.GetAfterSet | minio/copy_conditions.py:59-63 | A get after a set returns the value. Other keys read as before. |
| CopyConditions.DeleteRemovesOnly | minio/copy_conditions.py:59-66 | A delete removes only that key. |
| CopyConditions.DeleteUndoesSet | minio/copy_conditions.py:62-66 | Setting a new key and deleting it restores the store. |
| CopyConditions.LenCountsKeys | minio/copy_conditions.py:62-72 | The length grows by one exactly when a new key is set, and shrinks by one on a delete. |
| CopyConditions.SetEtagCondition | minio/copy_conditions.py:74-82 | The check runs before the write: a rejected ETag gives ValueError and writes nothing. |
| CopyConditions.SetMatchEtag | minio/copy_conditions.py:74-77 | Stores the ETag under X-Amz-Copy-Source-If-Match and leaves every other key unchanged. |
| CopyConditions.SetMatchEtagExcept | minio/copy_conditions.py:79-82 | Stores the ETag under X-Amz-Copy-Source-If-None-Match and leaves every other key unchanged. |
| CopyConditions.SetUnmodifiedSince | minio/copy_conditions.py:84-87 | Writes exactly X-Amz-Copy-Source-If-Unmodified-Since with the formatted time. |
| CopyConditions.SetModifiedSince | minio/copy_conditions.py:89-92 | Writes exactly X-Amz-Copy-Source-If-Modified-Since with the formatted time. |
| CopyConditions.DistinctWrites | minio/copy_conditions.py:62-63 | Four writes to four distinct keys each read back their own value, and add at most four keys. |
| CopyConditions.SettersIndependent | minio/copy_conditions.py:74-92 | The four setters write four distinct keys. After all four, each holds its own value and at most four keys were added. |

## Left out

- HTTP trace output, the urllib3 transport and header plumbing, and connection release
  are I/O. They do not affect the classification.
- Request signing (`sign_v4_s3`, `presign_v4`) and the MD5/SHA-256 helpers are
  cryptography. The digests are parameters of `RequestHeaders.BuildHeaders`.
- XML parsing and marshalling (`S3Error.fromxml`, `parse_list_objects`, the location
  reply, the CreateBucketConfiguration body) are data mapping. A parsed error is an
  `Option<ErrorDoc>` input; a location reply is its text; a listing reply is a `Page`.
- `S3Error`'s resource path, request id and host id come from the transport and are not
  modelled. Neither is the `x-amz-bucket-object-lock-enabled` header beyond the flag.
- `ThreadPool` internals are concurrency. The pool is an arbitrary arrival order of the
  submitted tasks. Which failure `pool.result()` reports is not shown, so the model takes
  the first failure in arrival order.
- The progress observer, `fput_object`, `fget_object`, the streaming and notification
  APIs, and the configuration get/set wrappers are outside the modelled core.
- `get_part_info`, `read_part_data`, `check_bucket_name`, `check_non_empty_string`,
  `check_sse` and `time.to_http_header` are not part of this model:
  - their results are parameters: the part size and count, the name-check verdict, the
    formatted date;
  - reading is modelled as taking bytes from a sequence.
- `_build_headers`' `time.utcnow()` is a clock. The formatted date is a parameter.
- RequestHeaders.BuildHeaders: header names are a datatype. The seven names the client
  writes have their own constructors, and `Other` holds any other name. A caller's header
  under one of the seven names is that constructor, never `Other`. As in a Python dict,
  names that differ only in case are different headers.
- Upload.ReadKnown: requires `(part_count−1)·part_size ≤ length`, which is what
  `get_part_info` guarantees for the count it returns. It does not model a count that
  contradicts the length.
- RequestHeaders.PresignExpiry: takes the expiry in whole microseconds rather than as a
  float `total_seconds()`.
- Execute.Run: states "never RetryHead" only once a request was sent. Region resolution
  runs outside the `try` of `_execute`, so a server XML body with the code RetryHead on
  the location request can propagate.
- Execute.Run: the retry goes to the region resolved before the first attempt. The
  evicted entry is not re-resolved, because `_execute` reuses its local `region`.
- Upload.Rethrow: when the abort request itself fails, its exception propagates instead
  of the original one. This follows Python semantics: the `raise exc` after the abort
  call is never reached.
- Classify.Open: uses the intended 409 entry of the status table. For a HEAD request
  answered 409 with no body, the client as written raises ValueError instead (see
  Findings). `Execute.Run` classifies replies through `Open` and inherits this.
- Upload.PutObject: requires a non-empty UploadId from CreateMultipartUpload, and so do
  `SendParts`, `UploadSeveral`, `TryUpload` and `UploadParts`. On an empty id the client
  as written asks for a new upload id before every part (`if not upload_id`), sends the
  parts under the empty id, and never aborts (minio/api.py:1341, 1379). This is not
  modelled.
- Listing.Listing: follows the listing only as far as the server's pages are given; a
  server that is truncated forever would be followed indefinitely. A page request that
  raises (minio/api.py:2374) is not modelled: every page given is a successful reply. In
  the client such an exception ends the generator after the earlier pages' objects were
  yielded.
- Two further defects are left out: `{"versionId", version_id}` is a set literal, so item
  assignment fails when a version id is given (minio/api.py:2125, 2152, 2180, 2266,
  2305); `delete_object_lock_config` passes `self` twice (minio/api.py:2205-2207). Both
  are in operations outside the modelled core.

## Findings

| source | as written | input that shows it | evidently intended | confidence | as-written member | corrected member |
|---|---|---|---|---|---|---|
| minio/api.py:349-353 | The 409 entry's lambda returns `((code, message),)` because of a trailing comma. Unpacking it into `code, message` at line 362 raises ValueError. | A HEAD request answered 409 with an empty body. A non-HEAD request with an empty body raises InvalidResponseError first (lines 313-320), so only HEAD reaches line 362 | 409 yields NoSuchBucket "Bucket does not exist" when a bucket is named, else ResourceConflict "Request resource conflicts" | not executed; the error follows from Python's tuple syntax | Classify.SyntheticCodeAsWritten, Classify.Conflict409Unpacks | Classify.SyntheticCode |

=== FILE: classify.dfy ===
/** How one HTTP response becomes either the response itself or the exception
    the client raises (`_url_open` and `_handle_redirect_response` in
    minio/api.py), including the region-cache eviction that goes with it. */
module Classify {
  import opened Errors
  import opened Text

  /** The client's bucket-name to region cache (`_region_map`). */
  type RegionMap = map<string, string>

  /** Truthiness of `_region_map.get(bucket)`: an entry with a non-empty region. */
  predicate Cached(cache: RegionMap, bucket: string) {
    bucket in cache && cache[bucket] != ""
  }

  /** What every cache the client builds satisfies: no entry for the absent
      bucket name and no empty region, so every entry is a cache hit. */
  predicate ValidCache(cache: RegionMap) {
    "" !in cache && forall b :: b in cache ==> cache[b] != ""
  }

  /** The fields `S3Error.fromxml` reads from an XML error body. */
  datatype ErrorDoc = ErrorDoc(code: string, message: string, bucket: string, obj: string)

  /** One HTTP response as the classifier sees it.
      `data` is the drained body ("" when empty); `parsed` is what the XML
      error parser makes of `data` (None when it is not well-formed);
      `bucketRegion` is the `x-amz-bucket-region` header ("" when absent). */
  datatype Response = Response(
    status: int,
    contentType: Option<string>,
    data: string,
    parsed: Option<ErrorDoc>,
    bucketRegion: string)

  /** A `(code, message)` pair as the status tables produce it. */
  datatype Coded = Coded(code: Option<string>, message: Option<string>)

  predicate IsSuccess(status: int) {
    status == 200 || status == 204 || status == 206
  }

  /** The suffix a redirect message gets when the service names the bucket's region. */
  function RegionHint(region: string): string {
    if region == "" then "" else "; use region " + region
  }

  /** The redirect table: codes for 301, 307 and 400, nothing for other statuses. */
  function RedirectTable(status: int): Coded {
    if status == 301 then Coded(Some("PermanentRedirect"), Some("Moved Permanently"))
    else if status == 307 then Coded(Some("Redirect"), Some("Temporary redirect"))
    else if status == 400 then Coded(Some("BadRequest"), Some("Bad request"))
    else Coded(None, None)
  }

  /** `_handle_redirect_response`: the redirect code and message, or the
      internal `RetryHead` code when a HEAD request for a cached bucket was
      redirected to another region and a retry is allowed. */
  function RedirectCode(verb: string, bucket: string, status: int, bucketRegion: string,
                        retry: bool, cache: RegionMap): (c: Coded)
    ensures c.code == Some("RetryHead") <==>
      retry && bucketRegion != "" && verb == "HEAD" && bucket != "" && Cached(cache, bucket)
    ensures c.code == Some("RetryHead") ==> c.message.None?
    ensures c.code != Some("RetryHead") ==>
      c.code == RedirectTable(status).code &&
      (c.code.Some? <==> status == 301 || status == 307 || status == 400) &&
      (c.message.Some? <==> c.code.Some?) &&
      (c.message.Some? ==>
         RedirectTable(status).message.Some? &&
         c.message.value == RedirectTable(status).message.value + RegionHint(bucketRegion))
  {
    if retry && bucketRegion != "" && verb == "HEAD" && bucket != "" && Cached(cache, bucket) then
      Coded(Some("RetryHead"), None)
    else
      var t := RedirectTable(status);
      if t.message.Some? then Coded(t.code, Some(t.message.value + RegionHint(bucketRegion))) else t
  }

  /** `"application/xml" in content_type.split(";")`. */
  predicate IsXmlType(contentType: string) {
    "application/xml" in Split(contentType, ';')
  }

  /** A content type with parameters after the media type is accepted. */
  lemma XmlTypeWithParameters(params: string)
    ensures IsXmlType("application/xml;" + params)
  {
    assert "application/xml;" + params == "application/xml" + [';'] + params;
    SplitAtFirst("application/xml", params, ';');
  }

  /** A content type without parameters is accepted exactly when it is `application/xml`. */
  lemma XmlTypeExact(contentType: string)
    requires ';' !in contentType
    ensures IsXmlType(contentType) <==> contentType == "application/xml"
  {
    SplitNoSeparator(contentType, ';');
  }

  /** The status table used when the error body is empty, as the authors
      evidently meant it: every entry yields a `(code, message)` pair. */
  function SyntheticCode(verb: string, bucket: string, obj: string, resp: Response,
                         cache: RegionMap): (c: Coded)
    ensures c.code.Some? <==>
      resp.status in {301, 307, 400, 403, 404, 405, 409, 501} || c.code == Some("RetryHead")
  {
    match resp.status
    case 301 => RedirectCode(verb, bucket, 301, resp.bucketRegion, true, cache)
    case 307 => RedirectCode(verb, bucket, 307, resp.bucketRegion, true, cache)
    case 400 => RedirectCode(verb, bucket, 400, resp.bucketRegion, true, cache)
    case 403 => Coded(Some("AccessDenied"), Some("Access denied"))
    case 404 =>
      if obj != "" then Coded(Some("NoSuchKey"), Some("Object does not exist"))
      else if bucket != "" then Coded(Some("NoSuchBucket"), Some("Bucket does not exist"))
      else Coded(Some("ResourceNotFound"), Some("Request resource not found"))
    case 405 =>
      Coded(Some("MethodNotAllowed"), Some("The specified method is not allowed against this resource"))
    case 409 =>
      if bucket != "" then Coded(Some("NoSuchBucket"), Some("Bucket does not exist"))
      else Coded(Some("ResourceConflict"), Some("Request resource conflicts"))
    case 501 =>
      Coded(Some("MethodNotAllowed"), Some("The specified method is not allowed against this resource"))
    case _ => Coded(None, None)
  }

  /** One element of a tuple a status-table entry returns: a string or
      `None`, or a nested `(code, message)` pair. */
  datatype Item = Text(text: Option<string>) | Pair(pair: Coded)

  /** The tuple each entry of `error_map` returns as written
      (minio/api.py:327-358), or `(None, None)` for a status without an entry.
      The 409 entry ends in a trailing comma after its conditional
      expression, so it is a one-element tuple holding the pair. */
  function EntryAsWritten(verb: string, bucket: string, obj: string, resp: Response,
                          cache: RegionMap): seq<Item>
  {
    match resp.status
    case 301 | 307 | 400 =>
      var c := RedirectCode(verb, bucket, resp.status, resp.bucketRegion, true, cache);
      [Text(c.code), Text(c.message)]
    case 403 => [Text(Some("AccessDenied")), Text(Some("Access denied"))]
    case 404 =>
      if obj != "" then [Text(Some("NoSuchKey")), Text(Some("Object does not exist"))]
      else if bucket != "" then [Text(Some("NoSuchBucket")), Text(Some("Bucket does not exist"))]
      else [Text(Some("ResourceNotFound")), Text(Some("Request resource not found"))]
    case 405 | 501 =>
      [Text(Some("MethodNotAllowed")), Text(Some("The specified method is not allowed against this resource"))]
    case 409 =>
      [Pair(if bucket != "" then Coded(Some("NoSuchBucket"), Some("Bucket does not exist"))
            else Coded(Some("ResourceConflict"), Some("Request resource conflicts")))]
    case _ => [Text(None), Text(None)]
  }

  /** `code, message = t`: Python's unpacking of a tuple into two names,
      which raises `ValueError` unless the tuple has exactly two elements. */
  function Unpack2(t: seq<Item>): (r: Result<(Item, Item)>)
    ensures r.Ok? <==> |t| == 2
    ensures r.Ok? ==> r.value.0 == t[0] && r.value.1 == t[1]
    ensures r.Err? ==> r.error.ValueError?
  {
    if |t| == 2 then Ok((t[0], t[1]))
    else if |t| < 2 then Err(ValueError("not enough values to unpack (expected 2, got " + Decimal(|t|) + ")"))
    else Err(ValueError("too many values to unpack (expected 2)"))
  }

  /** Every entry of the table as written but 409's is a pair of strings,
      the same pair the intended table gives; 409's is a one-element tuple. */
  lemma EntriesAsWritten(verb: string, bucket: string, obj: string, resp: Response, cache: RegionMap)
    ensures var t := EntryAsWritten(verb, bucket, obj, resp, cache);
      && (resp.status == 409 <==> |t| == 1)
      && (resp.status != 409 ==>
            |t| == 2 && t[0].Text? && t[1].Text? &&
            Coded(t[0].text, t[1].text) == SyntheticCode(verb, bucket, obj, resp, cache))
  {
    var t := EntryAsWritten(verb, bucket, obj, resp, cache);
    var c := SyntheticCode(verb, bucket, obj, resp, cache);
    match resp.status
    case 301 | 307 | 400 =>
      assert t == [Text(c.code), Text(c.message)];
    case 409 =>
    case _ =>
  }

  /** Line 362 as written: unpack the entry's tuple into `code, message`. */
  function SyntheticCodeAsWritten(verb: string, bucket: string, obj: string, resp: Response,
                                  cache: RegionMap): (r: Result<Coded>)
    ensures r.Err? <==> resp.status == 409
    ensures r.Err? ==> r.error.ValueError?
    ensures r.Ok? ==> r.value == SyntheticCode(verb, bucket, obj, resp, cache)
  {
    var t := EntryAsWritten(verb, bucket, obj, resp, cache);
    EntriesAsWritten(verb, bucket, obj, resp, cache);
    match Unpack2(t)
    case Err(e) => Err(e)
    case Ok(p) => Ok(Coded(p.0.text, p.1.text))
  }

  /** The as-written table fails on every 409 response without a body, where
      the intended table reports a missing bucket or a conflict. */
  lemma Conflict409Unpacks(bucket: string, obj: string, resp: Response, cache: RegionMap)
    requires resp.status == 409 && resp.data == ""
    ensures SyntheticCodeAsWritten("HEAD", bucket, obj, resp, cache).Err?
    ensures Open("HEAD", bucket, obj, resp, cache).result.Err?
    ensures Open("HEAD", bucket, obj, resp, cache).result.error ==
      S3Error(if bucket != "" then Some("NoSuchBucket") else Some("ResourceConflict"),
              if bucket != "" then Some("Bucket does not exist") else Some("Request resource conflicts"),
              bucket, obj)
  {
  }

  /** The exception raised for a non-success response once the content-type
      and empty-body guards have passed. */
  function ErrorOf(verb: string, bucket: string, obj: string, resp: Response, cache: RegionMap): Error {
    if resp.data != "" then
      match resp.parsed
      case Some(doc) => S3Error(Some(doc.code), Some(doc.message), doc.bucket, doc.obj)
      case None => XmlParseError
    else
      var c := SyntheticCode(verb, bucket, obj, resp, cache);
      if c.code.None? then ServerError(resp.status) else S3Error(c.code, c.message, bucket, obj)
  }

  /** True when an outcome makes the client forget the bucket's region. */
  predicate Evicts<T>(r: Result<T>) {
    HasCode(r, "NoSuchBucket") || HasCode(r, "RetryHead")
  }

  /** The outcome of one request: the response or the exception, and the cache afterwards. */
  datatype Opened = Opened(result: Result<Response>, cache: RegionMap)

  /** The classification half of `_url_open`. */
  function Open(verb: string, bucket: string, obj: string, resp: Response, cache: RegionMap): (o: Opened)
    ensures o.result.Ok? <==> IsSuccess(resp.status)
    ensures o.result.Ok? ==> o.result.value == resp && o.cache == cache
    ensures !IsSuccess(resp.status) && verb != "HEAD" &&
            (!IsXmlType(resp.contentType.GetOr("")) || resp.data == "") ==>
      o.result.Err? && o.result.error.InvalidResponse? && o.result.error.status == resp.status
    ensures o.result.Err? && o.result.error.InvalidResponse? ==>
      verb != "HEAD" && (resp.data == "" <==> o.result.error.body.None?)
    ensures o.result.Err? && o.result.error.InvalidResponse? ==>
      && o.result.error.contentType == resp.contentType
      && (resp.data != "" ==> o.result.error.body == Some(resp.data))
    ensures !IsSuccess(resp.status) && resp.data != "" && resp.parsed.Some? &&
            (verb == "HEAD" || IsXmlType(resp.contentType.GetOr(""))) ==>
      var doc := resp.parsed.value;
      o.result == Err(S3Error(Some(doc.code), Some(doc.message), doc.bucket, doc.obj))
    ensures !IsSuccess(resp.status) && resp.data != "" && resp.parsed.None? &&
            (verb == "HEAD" || IsXmlType(resp.contentType.GetOr(""))) ==>
      o.result == Err(XmlParseError)
    ensures !IsSuccess(resp.status) && resp.data == "" && verb == "HEAD" ==>
      var c := SyntheticCode(verb, bucket, obj, resp, cache);
      o.result == Err(if c.code.None? then ServerError(resp.status) else S3Error(c.code, c.message, bucket, obj))
    ensures o.cache == (if Evicts(o.result) then cache - {bucket} else cache)
    ensures ValidCache(cache) ==> ValidCache(o.cache)
  {
    if IsSuccess(resp.status) then
      Opened(Ok(resp), cache)
    else if verb != "HEAD" && !IsXmlType(resp.contentType.GetOr("")) then
      Opened(Err(InvalidResponse(resp.status, resp.contentType,
                                 if resp.data == "" then None else Some(resp.data))), cache)
    else if resp.data == "" && verb != "HEAD" then
      Opened(Err(InvalidResponse(resp.status, resp.contentType, None)), cache)
    else
      var e := ErrorOf(verb, bucket, obj, resp, cache);
      var evict := e.S3Error? && (e.code == Some("NoSuchBucket") || e.code == Some("RetryHead"));
      Opened(Err(e), if evict then cache - {bucket} else cache)
  }

  /** The errors synthesised for a HEAD request whose error response has no body. */
  lemma HeadWithoutBody(bucket: string, obj: string, resp: Response, cache: RegionMap)
    requires !IsSuccess(resp.status) && resp.data == ""
    ensures var r := Open("HEAD", bucket, obj, resp, cache).result;
      && (resp.status == 403 ==> HasCode(r, "AccessDenied"))
      && (resp.status == 404 && obj != "" ==> HasCode(r, "NoSuchKey"))
      && (resp.status == 404 && obj == "" && bucket != "" ==> HasCode(r, "NoSuchBucket"))
      && (resp.status == 404 && obj == "" && bucket == "" ==> HasCode(r, "ResourceNotFound"))
      && (resp.status in {405, 501} ==> HasCode(r, "MethodNotAllowed"))
      && (resp.status !in {301, 307, 400, 403, 404, 405, 409, 501} <==> r == Err(ServerError(resp.status)))
  {
  }

  /** Only a HEAD request to a cached bucket, redirected with a region hint,
      is classified as `RetryHead` when the service sent no XML body. */
  lemma RetryHeadOnlyForCachedHead(verb: string, bucket: string, obj: string, resp: Response, cache: RegionMap)
    requires resp.data == ""
    ensures HasCode(Open(verb, bucket, obj, resp, cache).result, "RetryHead") <==>
      verb == "HEAD" && resp.status in {301, 307, 400} && resp.bucketRegion != "" &&
      bucket != "" && Cached(cache, bucket)
  {
  }
}

=== FILE: copy_conditions.dfy ===
/** `CopyConditions` in minio/copy_conditions.py: a mutable mapping of
    CopyObject precondition headers, modelled as a value that each operation
    returns updated. */
module CopyConditions {
  import opened Errors

  type Store = map<string, string>

  const IfMatch: string := "X-Amz-Copy-Source-If-Match"
  const IfNoneMatch: string := "X-Amz-Copy-Source-If-None-Match"
  const IfUnmodifiedSince: string := "X-Amz-Copy-Source-If-Unmodified-Since"
  const IfModifiedSince: string := "X-Amz-Copy-Source-If-Modified-Since"

  /** `conditions[key]`: the stored value, or `KeyError`. */
  function Get(s: Store, key: string): (r: Result<string>)
    ensures r.Ok? <==> key in s
    ensures r.Ok? ==> r.value == s[key]
    ensures r.Err? ==> r.error == KeyError(key)
  {
    if key in s then Ok(s[key]) else Err(KeyError(key))
  }

  /** `conditions[key] = value`. */
  function Set(s: Store, key: string, value: string): (t: Store)
    ensures key in t && t[key] == value
    ensures t.Keys == s.Keys + {key}
    ensures forall k :: k in s && k != key ==> t[k] == s[k]
  {
    s[key := value]
  }

  /** `del conditions[key]`: the store without `key`, or `KeyError`. */
  function Delete(s: Store, key: string): (r: Result<Store>)
    ensures r.Ok? <==> key in s
    ensures r.Ok? ==> r.value.Keys == s.Keys - {key}
    ensures r.Ok? ==> forall k :: k in r.value ==> r.value[k] == s[k]
    ensures r.Err? ==> r.error == KeyError(key)
  {
    if key in s then Ok(s - {key}) else Err(KeyError(key))
  }

  /** `len(conditions)`: the number of stored keys. */
  function Len(s: Store): (n: nat)
    ensures n == |s.Keys|
    ensures n == 0 <==> s == map[]
  {
    assert s != map[] ==> exists k :: k in s;
    |s|
  }

  /** Getting a key just set yields the value set; other keys read as before. */
  lemma GetAfterSet(s: Store, key: string, value: string, other: string)
    ensures Get(Set(s, key, value), key) == Ok(value)
    ensures other != key ==> Get(Set(s, key, value), other) == Get(s, other)
  {
  }

  /** Deleting a stored key removes it and nothing else. */
  lemma DeleteRemovesOnly(s: Store, key: string, other: string)
    requires key in s
    ensures Get(Delete(s, key).value, key) == Err(KeyError(key))
    ensures other != key ==> Get(Delete(s, key).value, other) == Get(s, other)
  {
  }

  /** Setting a key and deleting it again restores a store that lacked it. */
  lemma DeleteUndoesSet(s: Store, key: string, value: string)
    requires key !in s
    ensures Delete(Set(s, key, value), key) == Ok(s)
  {
    assert Set(s, key, value) - {key} == s;
  }

  /** The length grows by one exactly when a new key is set, and shrinks by
      one on every successful delete. */
  lemma LenCountsKeys(s: Store, key: string, value: string)
    ensures Len(Set(s, key, value)) == (if key in s then Len(s) else Len(s) + 1)
    ensures key in s ==> Len(Delete(s, key).value) == Len(s) - 1
  {
    if key in s {
      assert Set(s, key, value).Keys == s.Keys;
    } else {
      assert Set(s, key, value).Keys == s.Keys + {key};
    }
  }

  /** An ETag condition setter: the non-emptiness check runs first (its
      verdict is `accepted`, and the empty string is never accepted), then the
      ETag is written under `key`. A rejected ETag leaves the store unchanged. */
  function SetEtagCondition(s: Store, key: string, etag: string, accepted: bool): (r: Result<Store>)
    requires accepted ==> etag != ""
    ensures r.Ok? <==> accepted
    ensures r.Err? ==> r.error.ValueError?
    ensures r.Ok? ==> r.value == Set(s, key, etag)
  {
    if accepted then Ok(Set(s, key, etag))
    else Err(ValueError("expected non-empty string"))
  }

  /** `set_match_etag` (minio/copy_conditions.py:74-77). */
  function SetMatchEtag(s: Store, etag: string, accepted: bool): (r: Result<Store>)
    requires accepted ==> etag != ""
    ensures r.Ok? <==> accepted
    ensures r.Ok? ==> Get(r.value, IfMatch) == Ok(etag)
    ensures r.Ok? ==> forall k :: k != IfMatch ==> Get(r.value, k) == Get(s, k)
    ensures r.Err? ==> r.error.ValueError?
  {
    SetEtagCondition(s, IfMatch, etag, accepted)
  }

  /** `set_match_etag_except` (minio/copy_conditions.py:79-82). */
  function SetMatchEtagExcept(s: Store, etag: string, accepted: bool): (r: Result<Store>)
    requires accepted ==> etag != ""
    ensures r.Ok? <==> accepted
    ensures r.Ok? ==> Get(r.value, IfNoneMatch) == Ok(etag)
    ensures r.Ok? ==> forall k :: k != IfNoneMatch ==> Get(r.value, k) == Get(s, k)
    ensures r.Err? ==> r.error.ValueError?
  {
    SetEtagCondition(s, IfNoneMatch, etag, accepted)
  }

  /** `set_unmodified_since` (minio/copy_conditions.py:84-87); `httpDate` is
      the time formatted by `to_http_header`. */
  function SetUnmodifiedSince(s: Store, httpDate: string): (t: Store)
    ensures Get(t, IfUnmodifiedSince) == Ok(httpDate)
    ensures forall k :: k != IfUnmodifiedSince ==> Get(t, k) == Get(s, k)
  {
    Set(s, IfUnmodifiedSince, httpDate)
  }

  /** `set_modified_since` (minio/copy_conditions.py:89-92); `httpDate` is
      the time formatted by `to_http_header`. */
  function SetModifiedSince(s: Store, httpDate: string): (t: Store)
    ensures Get(t, IfModifiedSince) == Ok(httpDate)
    ensures forall k :: k != IfModifiedSince ==> Get(t, k) == Get(s, k)
  {
    Set(s, IfModifiedSince, httpDate)
  }

  /** Four writes to four distinct keys: each key reads back its own value
      and the store grows by at most four keys. */
  lemma DistinctWrites(s: Store, k1: string, v1: string, k2: string, v2: string,
                       k3: string, v3: string, k4: string, v4: string)
    requires k1 != k2 && k1 != k3 && k1 != k4 && k2 != k3 && k2 != k4 && k3 != k4
    ensures var d := Set(Set(Set(Set(s, k1, v1), k2, v2), k3, v3), k4, v4);
            && Get(d, k1) == Ok(v1) && Get(d, k2) == Ok(v2)
            && Get(d, k3) == Ok(v3) && Get(d, k4) == Ok(v4)
            && Len(d) <= Len(s) + 4
  {
    var a := Set(s, k1, v1);
    var b := Set(a, k2, v2);
    var c := Set(b, k3, v3);
    LenCountsKeys(s, k1, v1);
    LenCountsKeys(a, k2, v2);
    LenCountsKeys(b, k3, v3);
    LenCountsKeys(c, k4, v4);
  }

  /** The four setters write four different headers, so they commute and
      a later call never disturbs an earlier one. */
  lemma SettersIndependent(s: Store, etag: string, noneMatch: string, since: string, until: string)
    requires etag != "" && noneMatch != ""
    ensures var a := SetMatchEtag(s, etag, true).value;
            var b := SetMatchEtagExcept(a, noneMatch, true).value;
            var c := SetUnmodifiedSince(b, until);
            var d := SetModifiedSince(c, since);
            && Get(d, IfMatch) == Ok(etag)
            && Get(d, IfNoneMatch) == Ok(noneMatch)
            && Get(d, IfUnmodifiedSince) == Ok(until)
            && Get(d, IfModifiedSince) == Ok(since)
            && Len(d) <= Len(s) + 4
  {
    var a := SetMatchEtag(s, etag, true).value;
    var b := SetMatchEtagExcept(a, noneMatch, true).value;
    assert a == Set(s, IfMatch, etag) && b == Set(a, IfNoneMatch, noneMatch);
    // The four header names have different lengths, hence are distinct.
    assert |IfMatch| == 26 && |IfNoneMatch| == 31 && |IfUnmodifiedSince| == 37 && |IfModifiedSince| == 35;
    DistinctWrites(s, IfMatch, etag, IfNoneMatch, noneMatch, IfUnmodifiedSince, until, IfModifiedSince, since);
  }
}

=== FILE: errors.dfy ===
/** Shared result and error types of the client model.

    Every exception the modelled code can raise becomes one constructor of
    `Error`, and every operation that can raise returns a `Result`. */
module Errors {

  /** The conventional optional value; Python's `None` is `None`. */
  datatype Option<+T> = None | Some(value: T) {
    function GetOr(default: T): T {
      match this
      case Some(v) => v
      case None => default
    }
  }

  /** The exceptions raised by the request pipeline, one per exception class. */
  datatype Error =
      /** `ValueError`: an argument was rejected before any request was sent. */
    | ValueError(reason: string)
      /** `InvalidResponseError`: a non-XML or empty error body. */
    | InvalidResponse(status: int, contentType: Option<string>, body: Option<string>)
      /** `ServerError`: a status with no XML body and no entry in the status table. */
    | ServerError(status: int)
      /** `S3Error`: a parsed or synthesised service error. */
    | S3Error(code: Option<string>, message: Option<string>, bucket: string, obj: string)
      /** The XML parser's exception for an error body that is not well-formed. */
    | XmlParseError
      /** `IOError`: the input stream ended before a part was complete. */
    | IOError(expected: int, got: int)
      /** `KeyError`: a mapping lookup or deletion of a key that is not stored. */
    | KeyError(key: string)

  /** The outcome of an operation that either returns a value or raises. */
  datatype Result<+T> = Ok(value: T) | Err(error: Error)

  /** True of an S3 error whose code is `c`. */
  predicate HasCode<T>(r: Result<T>, c: string) {
    r.Err? && r.error.S3Error? && r.error.code == Some(c)
  }
}

=== FILE: execute.dfy ===
/** `_execute` in minio/api.py: resolve the bucket's region once, send the
    request, and send it once more when the first reply was classified as
    the internal `RetryHead` code. */
module Execute {
  import opened Errors
  import opened Classify
  import opened Region

  /** The outcome of `_execute`: the response or the exception, the cache
      afterwards, and the region each attempt was sent to (one entry per attempt). */
  datatype Executed = Executed(result: Result<Response>, cache: RegionMap, attempts: seq<string>)

  /** `exc.copy(code, message)`: the same error with a new code and message. */
  function Recode(e: Error, c: Coded): (r: Error)
    requires e.S3Error?
    ensures r.S3Error? && r.code == c.code && r.message == c.message
    ensures r.bucket == e.bucket && r.obj == e.obj
  {
    e.(code := c.code, message := c.message)
  }

  /** `_execute(verb, bucket, obj)`. `lookup` and `locationText` answer the
      location request region resolution may send; `first` and `second` are
      the replies to the first attempt and to the retry. */
  function Run(client: Client, verb: string, bucket: string, obj: string, cache: RegionMap,
               lookup: Response, locationText: string, first: Response, second: Response): (x: Executed)
    ensures |x.attempts| <= 2
    ensures |x.attempts| == 0 <==> GetRegion(client, bucket, "", cache, lookup, locationText).result.Err?
    ensures |x.attempts| == 0 ==>
      x.result == Err(GetRegion(client, bucket, "", cache, lookup, locationText).result.error)
    ensures |x.attempts| == 0 ==> x.cache == GetRegion(client, bucket, "", cache, lookup, locationText).cache
    ensures forall i :: 0 <= i < |x.attempts| ==>
      x.attempts[i] == GetRegion(client, bucket, "", cache, lookup, locationText).result.value
    ensures |x.attempts| == 2 <==>
      |x.attempts| >= 1 &&
      HasCode(Open(verb, bucket, obj, first, GetRegion(client, bucket, "", cache, lookup, locationText).cache).result,
              "RetryHead")
    ensures |x.attempts| == 1 ==>
      var o1 := Open(verb, bucket, obj, first, GetRegion(client, bucket, "", cache, lookup, locationText).cache);
      x.result == o1.result && x.cache == o1.cache
    ensures |x.attempts| == 2 ==>
      var o1 := Open(verb, bucket, obj, first, GetRegion(client, bucket, "", cache, lookup, locationText).cache);
      var o2 := Open(verb, bucket, obj, second, o1.cache);
      && x.cache == o2.cache
      && (!HasCode(o2.result, "RetryHead") ==> x.result == o2.result)
      && (HasCode(o2.result, "RetryHead") ==>
            x.result == Err(Recode(o2.result.error,
                                   RedirectCode(verb, bucket, second.status, second.bucketRegion, false, o2.cache))))
    ensures |x.attempts| >= 1 ==> !HasCode(x.result, "RetryHead")
    ensures x.result.Ok? ==> |x.attempts| >= 1 && IsSuccess(x.result.value.status)
    ensures ValidCache(cache) ==> ValidCache(x.cache)
  {
    var resolved := GetRegion(client, bucket, "", cache, lookup, locationText);
    if resolved.result.Err? then
      Executed(Err(resolved.result.error), resolved.cache, [])
    else
      var region := resolved.result.value;
      var o1 := Open(verb, bucket, obj, first, resolved.cache);
      if !HasCode(o1.result, "RetryHead") then
        Executed(o1.result, o1.cache, [region])
      else
        var o2 := Open(verb, bucket, obj, second, o1.cache);
        if !HasCode(o2.result, "RetryHead") then
          Executed(o2.result, o2.cache, [region, region])
        else
          var c := RedirectCode(verb, bucket, second.status, second.bucketRegion, false, o2.cache);
          Executed(Err(Recode(o2.result.error, c)), o2.cache, [region, region])
  }

  /** The scenario of a HEAD request to a bucket cached in a stale region: the
      service answers 301 with the bucket's real region twice. The first reply
      evicts the bucket and triggers one retry, sent to the same region; the
      retry surfaces `PermanentRedirect` with the region hint. */
  lemma StaleRegionHeadScenario(bucket: string, stale: string, cache: RegionMap,
                                lookup: Response, text: string, redirect: Response)
    requires bucket != "" && stale != ""
    requires cache == map[bucket := stale]
    requires redirect == Response(301, None, "", None, "us-west-2")
    ensures var x := Run(Client("", true), "HEAD", bucket, "", cache, lookup, text, redirect, redirect);
      && x.attempts == [stale, stale]
      && x.result == Err(S3Error(Some("PermanentRedirect"),
                                 Some("Moved Permanently; use region us-west-2"), bucket, ""))
      && bucket !in x.cache
  {
    var client := Client("", true);
    var resolved := GetRegion(client, bucket, "", cache, lookup, text);
    assert resolved.result == Ok(stale) && resolved.cache == cache;
    var o1 := Open("HEAD", bucket, "", redirect, cache);
    assert RedirectCode("HEAD", bucket, 301, "us-west-2", true, cache).code == Some("RetryHead");
    assert HasCode(o1.result, "RetryHead");
    assert o1.cache == map[];
    assert !Cached(o1.cache, bucket);
    assert RedirectTable(301).message == Some("Moved Permanently");
    assert RegionHint("us-west-2") == "; use region us-west-2";
    assert "Moved Permanently" + "; use region us-west-2" == "Moved Permanently; use region us-west-2";
    assert RedirectCode("HEAD", bucket, 301, "us-west-2", true, o1.cache) ==
      Coded(Some("PermanentRedirect"), Some("Moved Permanently; use region us-west-2"));
  }

  /** A HEAD probe for a missing bucket: without an object name the service's bare 404
      on a HEAD probe surfaces `NoSuchBucket` and evicts the bucket; with an
      object name it surfaces `NoSuchKey` and keeps the cache. */
  lemma MissingBucketScenario(client: Client, bucket: string, obj: string, cache: RegionMap,
                              lookup: Response, text: string, notFound: Response, any: Response)
    requires bucket != "" && notFound.status == 404 && notFound.data == ""
    requires GetRegion(client, bucket, "", cache, lookup, text).result.Ok?
    ensures var x := Run(client, "HEAD", bucket, "", cache, lookup, text, notFound, any);
      HasCode(x.result, "NoSuchBucket") && bucket !in x.cache && |x.attempts| == 1
    ensures obj != "" ==>
      var x := Run(client, "HEAD", bucket, obj, cache, lookup, text, notFound, any);
      HasCode(x.result, "NoSuchKey") && x.cache == GetRegion(client, bucket, "", cache, lookup, text).cache
  {
  }
}

=== FILE: headers.dfy ===
/** Request headers and request parameters computed before a request is
    signed: `_build_headers`, the `Range` header of `get_object` and the
    expiry bound of `presigned_url` (minio/api.py). */
module RequestHeaders {
  import opened Errors
  import opened Text

  /** A header name. The seven names `_build_headers` writes are
      constructors of their own; `Other` carries any other name. */
  datatype HeaderName =
    | Host | UserAgent | ContentLength | ContentMd5 | ContentSha256 | SecurityToken | AmzDate
    | Other(name: string)

  /** The name as sent on the wire. */
  function Name(h: HeaderName): string {
    match h
    case Host => "Host"
    case UserAgent => "User-Agent"
    case ContentLength => "Content-Length"
    case ContentMd5 => "Content-MD5"
    case ContentSha256 => "x-amz-content-sha256"
    case SecurityToken => "X-Amz-Security-Token"
    case AmzDate => "x-amz-date"
    case Other(n) => n
  }

  type Headers = map<HeaderName, string>

  /** Credentials as the provider returns them; `sessionToken` is "" when there is none. */
  datatype Creds = Creds(accessKey: string, secretKey: string, sessionToken: string)

  /** The payload-hash value sent instead of a digest on authenticated HTTPS requests. */
  const UnsignedPayload: string := "UNSIGNED-PAYLOAD"

  /** True when the caller already supplied a (non-empty) `Content-MD5`. */
  predicate HasMd5(h: Headers) {
    ContentMd5 in h && h[ContentMd5] != ""
  }

  /** The payload hash `_build_headers` chooses ("" for none). `sha256` is
      what the SHA-256 helper returns for the body. */
  function PayloadHash(creds: Option<Creds>, https: bool, sha256: string): string {
    if creds.None? then "" else if https then UnsignedPayload else sha256
  }

  /** The `Content-MD5` value `_build_headers` computes ("" for none). `md5`
      is what the MD5 helper returns for the body. */
  function ComputedMd5(given: Headers, creds: Option<Creds>, https: bool, md5: string): string {
    if HasMd5(given) then ""
    else if creds.None? || https then md5
    else ""
  }

  /** The session token sent with the request ("" for none). */
  function SessionToken(creds: Option<Creds>): string {
    if creds.Some? then creds.value.sessionToken else ""
  }

  /** The value `_build_headers` writes under `k`, if any: host, user agent,
      length, the computed MD5 `m`, the payload hash `s`, the session token
      and the request date. Empty digests and tokens are not written, and a
      caller's header of any other name is never overwritten. */
  function Entry(k: HeaderName, host: string, userAgent: string, body: seq<bv8>, m: string,
                 s: string, token: string, amzDate: string): Option<string> {
    match k
    case Host => Some(host)
    case UserAgent => Some(userAgent)
    case ContentLength => if |body| > 0 then Some(Decimal(|body|)) else None
    case ContentMd5 => if m != "" then Some(m) else None
    case ContentSha256 => if s != "" then Some(s) else None
    case SecurityToken => if token != "" then Some(token) else None
    case AmzDate => Some(amzDate)
    case Other(_) => None
  }

  /** The seven names `_build_headers` may write. */
  function Managed(): set<HeaderName> {
    {Host, UserAgent, ContentLength, ContentMd5, ContentSha256, SecurityToken, AmzDate}
  }

  /** `_build_headers`: the caller's headers plus host, user agent, length,
      content hashes, session token and request date. The digests of the body
      and the formatted date are inputs. */
  function BuildHeaders(host: string, userAgent: string, given: Headers, body: seq<bv8>,
                        creds: Option<Creds>, https: bool, md5: string, sha256: string,
                        amzDate: string): (h: Headers)
    ensures forall k :: k in given ==> k in h
    ensures forall k :: k in h && k.Other? ==> k in given && h[k] == given[k]
    ensures Host in h && h[Host] == host
    ensures UserAgent in h && h[UserAgent] == userAgent
    ensures AmzDate in h && h[AmzDate] == amzDate
    ensures |body| > 0 ==>
      ContentLength in h && IsDigits(h[ContentLength]) && ParseDecimal(h[ContentLength]) == |body|
    ensures |body| == 0 ==>
      && (ContentLength in h <==> ContentLength in given)
      && (ContentLength in given ==> h[ContentLength] == given[ContentLength])
    ensures forall k :: k in h && k !in given ==> k in Managed()
  {
    DecimalRoundTrip(|body|);
    var m := ComputedMd5(given, creds, https, md5);
    var s := PayloadHash(creds, https, sha256);
    var t := SessionToken(creds);
    map k | k in given.Keys + Managed() && (k in given || Entry(k, host, userAgent, body, m, s, t, amzDate).Some?) ::
      var e := Entry(k, host, userAgent, body, m, s, t, amzDate);
      if e.Some? then e.value else given[k]
  }

  /** The content hashes and the session token `_build_headers` sends: the
      payload hash is UNSIGNED-PAYLOAD over HTTPS and the SHA-256 over HTTP
      when there are credentials, and the caller's otherwise; the MD5 is the
      caller's when given, else computed only without credentials or over
      HTTPS; the session token is sent whenever there is one. */
  lemma BuildHeadersDigests(host: string, userAgent: string, given: Headers, body: seq<bv8>,
                            creds: Option<Creds>, https: bool, md5: string, sha256: string,
                            amzDate: string)
    ensures var h := BuildHeaders(host, userAgent, given, body, creds, https, md5, sha256, amzDate);
      && (creds.Some? && https ==> ContentSha256 in h && h[ContentSha256] == UnsignedPayload)
      && (creds.Some? && !https && sha256 != "" ==> ContentSha256 in h && h[ContentSha256] == sha256)
      && (creds.Some? && !https && sha256 == "" ==>
            (ContentSha256 in h <==> ContentSha256 in given) &&
            (ContentSha256 in given ==> h[ContentSha256] == given[ContentSha256]))
      && (creds.None? ==>
            (ContentSha256 in h <==> ContentSha256 in given) &&
            (ContentSha256 in given ==> h[ContentSha256] == given[ContentSha256]))
      && (HasMd5(given) ==> h[ContentMd5] == given[ContentMd5])
      && (!HasMd5(given) && (creds.None? || https) && md5 != "" ==> ContentMd5 in h && h[ContentMd5] == md5)
      && (!HasMd5(given) && (creds.None? || https) && md5 == "" ==>
            (ContentMd5 in h <==> ContentMd5 in given) &&
            (ContentMd5 in given ==> h[ContentMd5] == given[ContentMd5]))
      && (creds.Some? && !https ==>
            (ContentMd5 in h <==> ContentMd5 in given) &&
            (ContentMd5 in given ==> h[ContentMd5] == given[ContentMd5]))
      && (SessionToken(creds) != "" ==> SecurityToken in h && h[SecurityToken] == SessionToken(creds))
      && (SessionToken(creds) == "" ==>
            (SecurityToken in h <==> SecurityToken in given) &&
            (SecurityToken in given ==> h[SecurityToken] == given[SecurityToken]))
  {
  }

  /** The first pass leaves no MD5 for a second one to compute: either it
      stored a non-empty `Content-MD5`, or none is due at all. */
  lemma Md5Settled(host: string, userAgent: string, given: Headers, body: seq<bv8>,
                   creds: Option<Creds>, https: bool, md5: string, sha256: string, amzDate: string)
    ensures ComputedMd5(BuildHeaders(host, userAgent, given, body, creds, https, md5, sha256, amzDate),
                        creds, https, md5) == ""
  {
  }

  /** Building the headers twice from the same inputs changes nothing the
      second time: a `Content-MD5` computed by the first pass is kept. */
  lemma BuildHeadersIdempotent(host: string, userAgent: string, given: Headers, body: seq<bv8>,
                               creds: Option<Creds>, https: bool, md5: string, sha256: string,
                               amzDate: string)
    ensures var h := BuildHeaders(host, userAgent, given, body, creds, https, md5, sha256, amzDate);
            BuildHeaders(host, userAgent, h, body, creds, https, md5, sha256, amzDate) == h
  {
    var h := BuildHeaders(host, userAgent, given, body, creds, https, md5, sha256, amzDate);
    Md5Settled(host, userAgent, given, body, creds, https, md5, sha256, amzDate);
    var m := ComputedMd5(given, creds, https, md5);
    var s := PayloadHash(creds, https, sha256);
    var t := SessionToken(creds);
    var h2 := BuildHeaders(host, userAgent, h, body, creds, https, md5, sha256, amzDate);
    forall k | k in h2
      ensures k in h && h2[k] == h[k]
    {
      if k != ContentMd5 {
        assert Entry(k, host, userAgent, body, "", s, t, amzDate) == Entry(k, host, userAgent, body, m, s, t, amzDate);
      }
    }
    assert h2 == h;
  }

  /** The `Range` header of `get_object` for `offset` and `length` (None when
      both are 0, an open-ended range when only the length is 0). */
  function RangeHeader(offset: nat, length: nat): (r: Option<string>)
    ensures r.None? <==> offset == 0 && length == 0
  {
    if offset == 0 && length == 0 then None
    else Some("bytes=" + Decimal(offset) + "-" + (if length > 0 then Decimal(offset + length - 1) else ""))
  }

  /** Reads a `bytes=first-last` header back: the first byte and, unless the
      range is open-ended, the last byte. */
  function ParseRange(h: string): Option<(nat, Option<nat>)> {
    var kv := Split(h, '=');
    if |kv| != 2 || kv[0] != "bytes" then None
    else
      var ends := Split(kv[1], '-');
      if |ends| != 2 || ends[0] == "" || !IsDigits(ends[0]) || !IsDigits(ends[1]) then None
      else Some((ParseDecimal(ends[0]), if ends[1] == "" then None else Some(ParseDecimal(ends[1]))))
  }

  lemma DigitsExclude(s: string, c: char)
    requires IsDigits(s) && !('0' <= c <= '9')
    ensures c !in s
  {
  }

  /** Parsing a well-formed range header recovers its two ends. */
  lemma ParseRangeOf(first: string, last: string)
    requires IsDigits(first) && first != "" && IsDigits(last)
    ensures ParseRange("bytes" + ['='] + (first + ['-'] + last)) ==
      Some((ParseDecimal(first), if last == "" then None else Some(ParseDecimal(last))))
  {
    var spec := first + ['-'] + last;
    DigitsExclude(first, '=');
    DigitsExclude(first, '-');
    DigitsExclude(last, '=');
    DigitsExclude(last, '-');
    assert '=' !in spec;
    SplitTwo("bytes", spec, '=');
    SplitTwo(first, last, '-');
  }

  /** The header names exactly the requested bytes: it starts at `offset`
      and, when a length is given, ends `length - 1` bytes later. */
  lemma {:induction false} RangeRoundTrip(offset: nat, length: nat)
    requires offset > 0 || length > 0
    ensures ParseRange(RangeHeader(offset, length).value) ==
      Some((offset, if length > 0 then Some(offset + length - 1) else None))
  {
    var first := Decimal(offset);
    var last := if length > 0 then Decimal(offset + length - 1) else "";
    assert RangeHeader(offset, length).value == "bytes" + ['='] + (first + ['-'] + last);
    ParseRangeOf(first, last);
    DecimalRoundTrip(offset);
    if length > 0 {
      DecimalRoundTrip(offset + length - 1);
    }
  }

  /** The longest expiry a presigned URL may have: seven days, in seconds. */
  const MaxExpirySeconds: int := 604800

  /** The expiry check of `presigned_url`. `micros` is the `timedelta` in
      microseconds; the result is the whole number of seconds handed to the
      signer (`int(expires.total_seconds())`). */
  function PresignExpiry(micros: int): (r: Result<nat>)
    ensures r.Ok? <==> 1000000 <= micros <= MaxExpirySeconds * 1000000
    ensures r.Ok? ==> 1 <= r.value <= MaxExpirySeconds
    ensures r.Ok? ==> r.value * 1000000 <= micros < (r.value + 1) * 1000000
  {
    if micros < 1000000 || micros > MaxExpirySeconds * 1000000 then
      Result<nat>.Err(ValueError("expires must be between 1 second to 7 days"))
    else
      Ok(micros / 1000000)
  }

  /** Every whole number of seconds from one second to seven days is accepted unchanged. */
  lemma WholeSecondsAccepted(seconds: int)
    requires 1 <= seconds <= MaxExpirySeconds
    ensures PresignExpiry(seconds * 1000000) == Ok(seconds)
  {
  }
}

=== FILE: listing.dfy ===
/** Listing and bulk deletion in minio/api.py: the query of each page of
    `_list_objects` and how the markers of one page feed the next, and the
    batches of at most 1000 objects `remove_objects` sends. */
module Listing {
  import opened Errors
  import opened Text

  /** The three listing APIs `_list_objects` can speak. */
  datatype ListMode = Versions | ListV1 | ListV2

  /** The arguments of `_list_objects` that shape every page's query. Absent
      optional strings are ""; `maxKeys` is 0 when not given. */
  datatype ListArgs = ListArgs(
    delimiter: string,
    encodingType: string,
    fetchOwner: bool,
    includeUserMeta: bool,
    maxKeys: nat,
    prefix: string,
    useApiV1: bool,
    includeVersion: bool)

  /** The markers carried from one page to the next ("" when absent). */
  datatype Markers = Markers(continuationToken: string, startAfter: string, versionIdMarker: string)

  /** The API used for the whole listing: a version-id marker at the start
      forces the versions listing. */
  function ModeOf(args: ListArgs, initial: Markers): ListMode {
    if args.includeVersion || initial.versionIdMarker != "" then Versions
    else if args.useApiV1 then ListV1
    else ListV2
  }

  /** The page size requested: `max_keys or 1000`. */
  function PageSize(maxKeys: nat): (n: nat)
    ensures n > 0
    ensures maxKeys > 0 ==> n == maxKeys
  {
    if maxKeys == 0 then 1000 else maxKeys
  }

  /** The query parameters a listing request may carry. */
  datatype Param =
    | VersionsParam | ListType | ContinuationToken | FetchOwner | UserMetadata | Delimiter
    | EncodingType | MaxKeys | PrefixParam | KeyMarker | Marker | StartAfter | VersionIdMarker

  /** The parameter's name on the wire. */
  function Name(p: Param): string {
    match p
    case VersionsParam => "versions"
    case ListType => "list-type"
    case ContinuationToken => "continuation-token"
    case FetchOwner => "fetch-owner"
    case UserMetadata => "user-metadata"
    case Delimiter => "delimiter"
    case EncodingType => "encoding-type"
    case MaxKeys => "max-keys"
    case PrefixParam => "prefix"
    case KeyMarker => "key-marker"
    case Marker => "marker"
    case StartAfter => "start-after"
    case VersionIdMarker => "version-id-marker"
  }

  type Query = map<Param, string>

  /** The parameter that carries the start marker in each mode. */
  function StartKey(mode: ListMode): Param {
    match mode
    case Versions => KeyMarker
    case ListV1 => Marker
    case ListV2 => StartAfter
  }

  /** The query of one page (minio/api.py:2346-2372). Its three parts use
      disjoint parameters, so their union is the dictionary the loop builds
      entry by entry. */
  function PageQuery(mode: ListMode, args: ListArgs, m: Markers): (q: Query)
    ensures q.Keys == ApiPart(mode, args, m).Keys + CommonPart(args).Keys + MarkerPart(mode, m).Keys
    ensures forall p :: p in ApiPart(mode, args, m) ==> q[p] == ApiPart(mode, args, m)[p]
    ensures forall p :: p in CommonPart(args) ==> q[p] == CommonPart(args)[p]
    ensures forall p :: p in MarkerPart(mode, m) ==> q[p] == MarkerPart(mode, m)[p]
  {
    PartsDisjoint(mode, args, m);
    ApiPart(mode, args, m) + CommonPart(args) + MarkerPart(mode, m)
  }

  lemma PartsDisjoint(mode: ListMode, args: ListArgs, m: Markers)
    ensures ApiPart(mode, args, m).Keys !! CommonPart(args).Keys
    ensures ApiPart(mode, args, m).Keys !! MarkerPart(mode, m).Keys
    ensures CommonPart(args).Keys !! MarkerPart(mode, m).Keys
  {
    var a := ApiPart(mode, args, m).Keys;
    var c := CommonPart(args).Keys;
    var k := MarkerPart(mode, m).Keys;
    forall p | p in a ensures p !in c && p !in k {
      assert p in {VersionsParam, ListType, ContinuationToken, FetchOwner, UserMetadata};
    }
    forall p | p in c ensures p !in k {
      assert p in {Delimiter, EncodingType, MaxKeys, PrefixParam};
    }
  }

  /** The API selection part of a page's query (minio/api.py:2346-2358). */
  function ApiPart(mode: ListMode, args: ListArgs, m: Markers): (q: Query)
    ensures q.Keys <= {VersionsParam, ListType, ContinuationToken, FetchOwner, UserMetadata}
    ensures (VersionsParam in q <==> mode == Versions) && (VersionsParam in q ==> q[VersionsParam] == "")
    ensures (ListType in q <==> mode == ListV2) && (ListType in q ==> q[ListType] == "2")
    ensures (ContinuationToken in q <==> mode == ListV2 && m.continuationToken != "") &&
      (ContinuationToken in q ==> q[ContinuationToken] == m.continuationToken)
    ensures (FetchOwner in q <==> mode == ListV2 && args.fetchOwner) &&
      (FetchOwner in q ==> q[FetchOwner] == "true")
    ensures (UserMetadata in q <==> mode == ListV2 && args.includeUserMeta) &&
      (UserMetadata in q ==> q[UserMetadata] == "true")
  {
    match mode
    case Versions => map[VersionsParam := ""]
    case ListV1 => map[]
    case ListV2 =>
      var q1 := if m.continuationToken != "" then map[ListType := "2", ContinuationToken := m.continuationToken]
                else map[ListType := "2"];
      var q2 := if args.fetchOwner then q1[FetchOwner := "true"] else q1;
      if args.includeUserMeta then q2[UserMetadata := "true"] else q2
  }

  /** The parameters every page carries (minio/api.py:2359-2363): the
      delimiter and prefix (empty when not given), the encoding type when
      given, and the page size. */
  function CommonPart(args: ListArgs): (q: Query)
    ensures q.Keys <= {Delimiter, EncodingType, MaxKeys, PrefixParam}
    ensures Delimiter in q && q[Delimiter] == args.delimiter
    ensures PrefixParam in q && q[PrefixParam] == args.prefix
    ensures (EncodingType in q <==> args.encodingType != "") &&
      (EncodingType in q ==> q[EncodingType] == args.encodingType)
    ensures MaxKeys in q && IsDigits(q[MaxKeys]) && ParseDecimal(q[MaxKeys]) == PageSize(args.maxKeys)
  {
    DecimalRoundTrip(PageSize(args.maxKeys));
    var q := map[Delimiter := args.delimiter, MaxKeys := Decimal(PageSize(args.maxKeys)), PrefixParam := args.prefix];
    if args.encodingType != "" then q[EncodingType := args.encodingType] else q
  }

  /** The markers of a page's query (minio/api.py:2364-2372): the start
      marker under the parameter of the mode, and the version-id marker. */
  function MarkerPart(mode: ListMode, m: Markers): (q: Query)
    ensures q.Keys <= {KeyMarker, Marker, StartAfter, VersionIdMarker}
    ensures KeyMarker in q <==> mode == Versions && m.startAfter != ""
    ensures Marker in q <==> mode == ListV1 && m.startAfter != ""
    ensures StartAfter in q <==> mode == ListV2 && m.startAfter != ""
    ensures StartKey(mode) in q ==> q[StartKey(mode)] == m.startAfter
    ensures (VersionIdMarker in q <==> m.versionIdMarker != "") &&
      (VersionIdMarker in q ==> q[VersionIdMarker] == m.versionIdMarker)
  {
    var q: Query := if m.startAfter != "" then map[StartKey(mode) := m.startAfter] else map[];
    if m.versionIdMarker != "" then q[VersionIdMarker := m.versionIdMarker] else q
  }

  /** Which API a query speaks, read back from the query itself. */
  function QueryMode(q: Query): ListMode {
    if VersionsParam in q then Versions else if ListType in q then ListV2 else ListV1
  }

  /** Every page's query names the API the listing uses, and carries a
      version-id marker only when one is pending. */
  lemma PageQueryIdentifiesMode(mode: ListMode, args: ListArgs, m: Markers)
    ensures QueryMode(PageQuery(mode, args, m)) == mode
    ensures VersionIdMarker in PageQuery(mode, args, m) <==> m.versionIdMarker != ""
  {
    var q := PageQuery(mode, args, m);
    var a, c, k := ApiPart(mode, args, m), CommonPart(args), MarkerPart(mode, m);
    assert q.Keys == a.Keys + c.Keys + k.Keys;
    assert VersionsParam !in c.Keys && VersionsParam !in k.Keys;
    assert ListType !in c.Keys && ListType !in k.Keys;
    assert VersionIdMarker !in a.Keys && VersionIdMarker !in c.Keys;
  }

  /** One parsed page: the objects it lists, whether more pages follow, and
      the markers `parse_list_objects` returns for the next request. */
  datatype Page = Page(objects: seq<string>, truncated: bool, nextStart: string, nextVersionIdMarker: string)

  /** The markers for the next page (minio/api.py:2374-2383): the returned
      start marker always; the returned version-id marker only when listing
      versions; in list-v2 the start marker also becomes the continuation token. */
  function NextMarkers(mode: ListMode, m: Markers, page: Page): (n: Markers)
    ensures n.startAfter == page.nextStart
    ensures n.versionIdMarker == (if mode == Versions then page.nextVersionIdMarker else "")
    ensures n.continuationToken == (if mode == ListV2 then page.nextStart else m.continuationToken)
  {
    var vim := if mode == Versions then page.nextVersionIdMarker else "";
    var token := if mode == ListV2 then page.nextStart else m.continuationToken;
    Markers(token, page.nextStart, vim)
  }

  /** What a listing did: the markers every page was requested with, in
      order, and the objects it yielded. */
  datatype Listed = Listed(mode: ListMode, args: ListArgs, requested: seq<Markers>, yielded: seq<string>)
  {
    /** The query of every page requested, in order. */
    function queries(): (qs: seq<Query>)
      ensures |qs| == |requested|
      ensures forall i :: 0 <= i < |requested| ==> qs[i] == PageQuery(mode, args, requested[i])
    {
      seq(|requested|, i requires 0 <= i < |requested| => PageQuery(mode, args, requested[i]))
    }
  }

  /** The listing as a whole: the query of every page requested and the objects
      yielded, for the server's pages in order. Requests stop after the first
      page that is not truncated; when every page given is truncated, the
      listing is followed only as far as the pages go. */
  function Listing(mode: ListMode, args: ListArgs, m: Markers, pages: seq<Page>): (r: Listed)
    ensures |r.requested| <= |pages|
    ensures r.mode == mode && r.args == args
    ensures |pages| > 0 ==> |r.requested| >= 1 && r.requested[0] == m
    ensures forall i :: 0 <= i < |r.requested| - 1 ==> pages[i].truncated
    ensures |r.requested| < |pages| ==> |r.requested| > 0 && !pages[|r.requested| - 1].truncated
    ensures (forall i :: 0 <= i < |pages| - 1 ==> pages[i].truncated) ==> |r.requested| == |pages|
    decreases |pages|
  {
    if |pages| == 0 then Listed(mode, args, [], [])
    else if !pages[0].truncated then Listed(mode, args, [m], pages[0].objects)
    else
      var rest := Listing(mode, args, NextMarkers(mode, m, pages[0]), pages[1..]);
      Listed(mode, args, [m] + rest.requested, pages[0].objects + rest.yielded)
  }

  /** The objects of the first `n` pages, in order. */
  function Yielded(pages: seq<Page>, n: nat): seq<string>
    requires n <= |pages|
    decreases n
  {
    if n == 0 then [] else pages[0].objects + Yielded(pages[1..], n - 1)
  }

  /** The objects yielded for `n` pages are the pages' object lists
      concatenated in page order. */
  lemma {:induction false} YieldedIsFlatten(pages: seq<Page>, n: nat)
    requires n <= |pages|
    ensures Yielded(pages, n) == Flatten(PageObjects(pages[..n]))
    decreases n
  {
    if n == 0 {
      assert PageObjects(pages[..0]) == [];
    } else {
      YieldedIsFlatten(pages[1..], n - 1);
      assert PageObjects(pages[..n]) == [pages[0].objects] + PageObjects(pages[1..][..n - 1]);
      FlattenCons(pages[0].objects, PageObjects(pages[1..][..n - 1]));
    }
  }

  /** The objects of each page, page by page. */
  function PageObjects(pages: seq<Page>): (objs: seq<seq<string>>)
    ensures |objs| == |pages|
    ensures forall i :: 0 <= i < |pages| ==> objs[i] == pages[i].objects
  {
    seq(|pages|, i requires 0 <= i < |pages| => pages[i].objects)
  }

  /** The listing yields the objects of exactly the pages it requested, in page order. */
  lemma ListingYields(mode: ListMode, args: ListArgs, m: Markers, pages: seq<Page>)
    ensures var r := Listing(mode, args, m, pages);
      r.yielded == Yielded(pages, |r.requested|) == Flatten(PageObjects(pages[..|r.requested|]))
  {
    YieldedPages(mode, args, m, pages);
    YieldedIsFlatten(pages, |Listing(mode, args, m, pages).requested|);
  }

  lemma {:induction false} YieldedPages(mode: ListMode, args: ListArgs, m: Markers, pages: seq<Page>)
    ensures var r := Listing(mode, args, m, pages);
      r.yielded == Yielded(pages, |r.requested|)
    decreases |pages|
  {
    if |pages| > 0 {
      ListingStep(mode, args, m, pages);
      if pages[0].truncated {
        var rest := Listing(mode, args, NextMarkers(mode, m, pages[0]), pages[1..]);
        YieldedPages(mode, args, NextMarkers(mode, m, pages[0]), pages[1..]);
        assert Yielded(pages, 1 + |rest.requested|) == pages[0].objects + Yielded(pages[1..], |rest.requested|);
      } else {
        assert Yielded(pages, 1) == pages[0].objects + Yielded(pages[1..], 0);
      }
    }
  }

  /** One step of a listing: the first page's objects, then the rest of the
      listing when the first page was truncated. */
  lemma ListingStep(mode: ListMode, args: ListArgs, m: Markers, pages: seq<Page>)
    requires |pages| > 0
    ensures var r := Listing(mode, args, m, pages);
      var rest := Listing(mode, args, NextMarkers(mode, m, pages[0]), pages[1..]);
      && (pages[0].truncated ==> r.yielded == pages[0].objects + rest.yielded && |r.requested| == 1 + |rest.requested|)
      && (!pages[0].truncated ==> r.yielded == pages[0].objects && |r.requested| == 1)
  {
  }

  /** A listing that asked for a second page did so after a truncated first
      page, and its later requests are those of the listing resumed there. */
  lemma ListingTail(mode: ListMode, args: ListArgs, m: Markers, pages: seq<Page>)
    requires |Listing(mode, args, m, pages).requested| > 1
    ensures pages[0].truncated
    ensures Listing(mode, args, m, pages).requested
      == [m] + Listing(mode, args, NextMarkers(mode, m, pages[0]), pages[1..]).requested
  {
  }

  /** Page `i` is requested whenever every page before it was truncated. */
  lemma {:induction false} ListingReaches(mode: ListMode, args: ListArgs, m: Markers, pages: seq<Page>, i: nat)
    requires i < |pages| && forall k :: 0 <= k < i ==> pages[k].truncated
    ensures i < |Listing(mode, args, m, pages).requested|
    decreases i
  {
    if i > 0 {
      assert pages[0].truncated;
      assert forall k :: 0 <= k < i - 1 ==> pages[1..][k] == pages[k + 1];
      ListingReaches(mode, args, NextMarkers(mode, m, pages[0]), pages[1..], i - 1);
    }
  }

  /** The markers the `i`-th page is requested with. */
  function MarkersAt(mode: ListMode, m: Markers, pages: seq<Page>, i: nat): (r: Markers)
    requires i <= |pages|
    ensures i == 0 ==> r == m
    ensures i > 0 ==> r.startAfter == pages[i - 1].nextStart
    ensures i > 0 && mode == ListV2 ==> r.continuationToken == pages[i - 1].nextStart
    ensures i > 0 && mode == Versions ==> r.versionIdMarker == pages[i - 1].nextVersionIdMarker
    ensures mode != Versions && m.versionIdMarker == "" ==> r.versionIdMarker == ""
    decreases i
  {
    if i == 0 then m else MarkersAt(mode, NextMarkers(mode, m, pages[0]), pages[1..], i - 1)
  }

  /** The markers of page `i` are those of page `i - 1` of the listing resumed
      after the first page. */
  lemma MarkersAtStep(mode: ListMode, m: Markers, pages: seq<Page>, i: nat)
    requires 0 < i <= |pages|
    ensures MarkersAt(mode, m, pages, i) == MarkersAt(mode, NextMarkers(mode, m, pages[0]), pages[1..], i - 1)
  {
  }

  /** The `i`-th page of a listing is requested with the markers the
      previous pages handed on. */
  lemma {:induction false} RequestedAt(mode: ListMode, args: ListArgs, m: Markers, pages: seq<Page>, i: nat)
    requires i < |Listing(mode, args, m, pages).requested|
    ensures Listing(mode, args, m, pages).requested[i] == MarkersAt(mode, m, pages, i)
    decreases i
  {
    if i > 0 {
      var next := NextMarkers(mode, m, pages[0]);
      ListingTail(mode, args, m, pages);
      RequestedAt(mode, args, next, pages[1..], i - 1);
      MarkersAtStep(mode, m, pages, i);
    }
  }

  /** The `i`-th request of a listing is the page query for the markers the
      previous pages handed on. */
  lemma ListingAt(mode: ListMode, args: ListArgs, m: Markers, pages: seq<Page>, i: nat)
    requires i < |Listing(mode, args, m, pages).requested|
    ensures Listing(mode, args, m, pages).queries()[i] == PageQuery(mode, args, MarkersAt(mode, m, pages, i))
  {
    RequestedAt(mode, args, m, pages, i);
  }

  /** Every page of a listing speaks the same API, and only a versions
      listing ever sends a version-id marker. */
  lemma ListingKeepsMode(mode: ListMode, args: ListArgs, m: Markers, pages: seq<Page>, i: nat)
    requires mode != Versions ==> m.versionIdMarker == ""
    requires i < |Listing(mode, args, m, pages).requested|
    ensures var q := Listing(mode, args, m, pages).queries()[i];
      QueryMode(q) == mode && (mode != Versions ==> VersionIdMarker !in q)
  {
    ListingAt(mode, args, m, pages, i);
    PageQueryIdentifiesMode(mode, args, MarkersAt(mode, m, pages, i));
  }

  /** The listing `_list_objects` performs from its arguments: every page
      speaks the API the arguments select, and a version-id marker is only
      ever sent by a versions listing (which an initial marker forces). */
  lemma ListObjectsMode(args: ListArgs, initial: Markers, pages: seq<Page>, i: nat)
    requires i < |Listing(ModeOf(args, initial), args, initial, pages).requested|
    ensures var q := Listing(ModeOf(args, initial), args, initial, pages).queries()[i];
      && QueryMode(q) == ModeOf(args, initial)
      && (VersionIdMarker in q ==> ModeOf(args, initial) == Versions)
      && (initial.versionIdMarker != "" ==> VersionsParam in q)
  {
    ListingKeepsMode(ModeOf(args, initial), args, initial, pages, i);
  }

  /** In list-v2, each page after the first continues from the marker the previous page returned. */
  lemma ContinuesFromPreviousPage(args: ListArgs, m: Markers, pages: seq<Page>, i: nat)
    requires 0 < i < |pages| && forall k :: 0 <= k < i ==> pages[k].truncated
    requires pages[i - 1].nextStart != ""
    ensures i < |Listing(ListV2, args, m, pages).requested|
    ensures var q := Listing(ListV2, args, m, pages).queries()[i];
      ContinuationToken in q && q[ContinuationToken] == pages[i - 1].nextStart
  {
    ListingReaches(ListV2, args, m, pages, i);
    var mi := MarkersAt(ListV2, m, pages, i);
    ListingAt(ListV2, args, m, pages, i);
    assert ContinuationToken in ApiPart(ListV2, args, mi);
  }

  /** In a versions listing, each page after the first resumes from the key
      and version-id markers the previous page returned. */
  lemma VersionsResumeFromPreviousPage(args: ListArgs, m: Markers, pages: seq<Page>, i: nat)
    requires 0 < i < |pages| && forall k :: 0 <= k < i ==> pages[k].truncated
    ensures i < |Listing(Versions, args, m, pages).requested|
    ensures var q := Listing(Versions, args, m, pages).queries()[i];
      && (pages[i - 1].nextStart != "" ==> KeyMarker in q && q[KeyMarker] == pages[i - 1].nextStart)
      && (pages[i - 1].nextVersionIdMarker != "" ==>
            VersionIdMarker in q && q[VersionIdMarker] == pages[i - 1].nextVersionIdMarker)
  {
    ListingReaches(Versions, args, m, pages, i);
    ListingAt(Versions, args, m, pages, i);
  }

  /** `DeleteObject`: an object name and optional version id ("" when none). */
  datatype DeleteObject = DeleteObject(name: string, versionId: string)

  /** The largest number of objects one DeleteObjects request carries. */
  const BatchLimit: nat := 1000

  /** The batching loop of `remove_objects` (minio/api.py:1579-1588): take up
      to 1000 objects at a time until none are left, one DeleteObjects request
      per batch. */
  method Batches(objects: seq<DeleteObject>) returns (batches: seq<seq<DeleteObject>>)
    ensures Flatten(batches) == objects
    ensures forall i :: 0 <= i < |batches| ==> 1 <= |batches[i]| <= BatchLimit
    ensures forall i :: 0 <= i < |batches| - 1 ==> |batches[i]| == BatchLimit
    ensures |batches| == (|objects| + BatchLimit - 1) / BatchLimit
  {
    batches := [];
    var taken := 0;
    while true
      invariant 0 <= taken <= |objects|
      invariant Flatten(batches) == objects[..taken]
      invariant forall i :: 0 <= i < |batches| ==> |batches[i]| == BatchLimit
      invariant taken == |batches| * BatchLimit
      decreases |objects| - taken
    {
      var end := if taken + BatchLimit <= |objects| then taken + BatchLimit else |objects|;
      var batch := objects[taken..end];
      if |batch| == 0 {
        assert objects[..taken] == objects;
        return;
      }
      FlattenAppend(batches, batch);
      assert objects[..taken] + batch == objects[..end];
      if |batch| < BatchLimit {
        batches := batches + [batch];
        assert end == |objects|;
        assert objects[..end] == objects;
        return;
      }
      batches := batches + [batch];
      taken := end;
    }
  }

  /** The errors listed by the replies to the first `n` requests, request by request. */
  function Reported<E>(requests: seq<seq<DeleteObject>>, deleteObjects: seq<DeleteObject> -> Result<seq<E>>,
                       n: nat): seq<E>
    requires n <= |requests|
    decreases n
  {
    if n == 0 then []
    else
      var before := Reported(requests, deleteObjects, n - 1);
      match deleteObjects(requests[n - 1])
      case Ok(errs) => before + errs
      case Err(_) => before
  }

  /** The generator `remove_objects` (minio/api.py:1579-1598): send one
      DeleteObjects request per batch and yield the errors its reply lists.
      `deleteObjects` stands for the request and the parsing of its reply;
      a request that raises ends the generator with that exception, after
      the errors of the earlier batches were yielded. */
  method RemoveObjects<E>(objects: seq<DeleteObject>, deleteObjects: seq<DeleteObject> -> Result<seq<E>>)
      returns (requests: seq<seq<DeleteObject>>, errors: seq<E>, failure: Option<Error>)
    ensures forall i :: 0 <= i < |requests| ==> 1 <= |requests[i]| <= BatchLimit
    ensures forall i :: 0 <= i < |requests| - 1 ==> |requests[i]| == BatchLimit
    ensures Flatten(requests) <= objects
    ensures |objects| == 0 <==> |requests| == 0
    ensures failure.None? ==>
      && Flatten(requests) == objects
      && (forall i :: 0 <= i < |requests| ==> deleteObjects(requests[i]).Ok?)
      && errors == Reported(requests, deleteObjects, |requests|)
    ensures failure.Some? ==>
      && |requests| >= 1
      && deleteObjects(requests[|requests| - 1]) == Err(failure.value)
      && (forall i :: 0 <= i < |requests| - 1 ==> deleteObjects(requests[i]).Ok?)
      && errors == Reported(requests, deleteObjects, |requests| - 1)
  {
    var batches := Batches(objects);
    errors := [];
    failure := None;
    var i := 0;
    while i < |batches|
      invariant 0 <= i <= |batches|
      invariant forall k :: 0 <= k < i ==> deleteObjects(batches[k]).Ok?
      invariant errors == Reported(batches[..i], deleteObjects, i)
    {
      ReportedPrefix(batches[..i + 1], deleteObjects, i);
      assert batches[..i + 1][..i] == batches[..i];
      match deleteObjects(batches[i])
      case Err(e) =>
        requests, failure := batches[..i + 1], Some(e);
        FlattenPrefix(batches, i + 1);
        return;
      case Ok(errs) =>
        errors := errors + errs;
        i := i + 1;
    }
    assert batches[..i] == batches;
    requests := batches;
  }

  /** The errors of the first `n` replies depend only on the first `n` requests. */
  lemma {:induction false} ReportedPrefix<E>(requests: seq<seq<DeleteObject>>,
                                             deleteObjects: seq<DeleteObject> -> Result<seq<E>>, n: nat)
    requires n <= |requests|
    ensures Reported(requests, deleteObjects, n) == Reported(requests[..n], deleteObjects, n)
    decreases n
  {
    if n > 0 {
      ReportedPrefix(requests, deleteObjects, n - 1);
      ReportedPrefix(requests[..n], deleteObjects, n - 1);
      assert requests[..n][..n - 1] == requests[..n - 1];
      assert requests[..n][n - 1] == requests[n - 1];
    }
  }
}

=== FILE: region.dfy ===
/** Region resolution (`_get_region`) and the region bookkeeping of
    `make_bucket` in minio/api.py, with the region cache passed in and out
    explicitly instead of living in the client object. */
module Region {
  import opened Errors
  import opened Classify

  /** The region every request falls back to. */
  const DefaultRegion: string := "us-east-1"

  /** What the client fixed at construction: the region passed to the
      constructor ("" when none) and whether a credentials provider is set. */
  datatype Client = Client(region: string, hasProvider: bool)

  /** The region named by the text of a GetBucketLocation reply. */
  function LocationRegion(text: string): (r: string)
    ensures r != ""
    ensures text == "" ==> r == DefaultRegion
    ensures text == "EU" ==> r == "eu-west-1"
    ensures text != "" && text != "EU" ==> r == text
  {
    if text == "" then DefaultRegion
    else if text == "EU" then "eu-west-1"
    else text
  }

  /** The message of the `ValueError` for a region that contradicts the constructor's. */
  function MismatchMessage(fixed: string, passed: string): string {
    "region must be " + fixed + ", but passed " + passed
  }

  /** The outcome of resolving a region: the region or the exception, the
      cache afterwards, and how many location requests were sent (0 or 1). */
  datatype Resolved = Resolved(result: Result<string>, cache: RegionMap, lookups: nat)

  /** True when `_get_region` has to ask the service for the bucket's location. */
  predicate NeedsLookup(client: Client, bucket: string, explicit: string, cache: RegionMap) {
    explicit == "" && client.region == "" && bucket != "" && client.hasProvider && !Cached(cache, bucket)
  }

  /** `_get_region(bucket, explicit)`. `lookup` is the reply to the
      GetBucketLocation request and `locationText` the text of its XML body;
      both are consulted only when the cache misses. */
  function GetRegion(client: Client, bucket: string, explicit: string, cache: RegionMap,
                     lookup: Response, locationText: string): (r: Resolved)
    ensures r.lookups == (if NeedsLookup(client, bucket, explicit, cache) then 1 else 0)
    ensures r.lookups == 0 ==> r.cache == cache
    ensures explicit != "" ==>
      r.result == (if client.region != "" && client.region != explicit
                   then Err(ValueError(MismatchMessage(client.region, explicit)))
                   else Ok(explicit))
    ensures explicit == "" && client.region != "" ==> r.result == Ok(client.region)
    ensures explicit == "" && client.region == "" && (bucket == "" || !client.hasProvider) ==>
      r.result == Ok(DefaultRegion)
    ensures explicit == "" && client.region == "" && bucket != "" && client.hasProvider &&
              Cached(cache, bucket) ==>
              r.result == Ok(cache[bucket])
    ensures r.lookups == 1 && r.result.Ok? ==>
      r.result.value == LocationRegion(locationText) && r.cache == cache[bucket := r.result.value]
    ensures r.lookups == 1 && r.result.Err? ==>
      Open("GET", bucket, "", lookup, cache).result == Err(r.result.error) && r.cache.Keys <= cache.Keys
    ensures r.lookups == 1 && r.result.Err? ==> r.cache == Open("GET", bucket, "", lookup, cache).cache
    ensures r.result.Ok? ==> r.result.value != ""
    ensures ValidCache(cache) ==> ValidCache(r.cache)
  {
    if explicit != "" then
      if client.region != "" && client.region != explicit then
        Resolved(Err(ValueError(MismatchMessage(client.region, explicit))), cache, 0)
      else
        Resolved(Ok(explicit), cache, 0)
    else if client.region != "" then
      Resolved(Ok(client.region), cache, 0)
    else if bucket == "" || !client.hasProvider then
      Resolved(Ok(DefaultRegion), cache, 0)
    else if Cached(cache, bucket) then
      Resolved(Ok(cache[bucket]), cache, 0)
    else
      var o := Open("GET", bucket, "", lookup, cache);
      if o.result.Err? then
        Resolved(Err(o.result.error), o.cache, 1)
      else
        var region := LocationRegion(locationText);
        Resolved(Ok(region), o.cache[bucket := region], 1)
  }

  /** Resolving the same bucket again right after a lookup hits the cache:
      no second request, same region, cache unchanged. */
  lemma SecondResolutionHitsCache(client: Client, bucket: string, cache: RegionMap,
                                  lookup: Response, text: string, lookup2: Response, text2: string)
    requires GetRegion(client, bucket, "", cache, lookup, text).result.Ok?
    ensures var first := GetRegion(client, bucket, "", cache, lookup, text);
            var second := GetRegion(client, bucket, "", first.cache, lookup2, text2);
            second.lookups == 0 && second.result == first.result && second.cache == first.cache
  {
    var first := GetRegion(client, bucket, "", cache, lookup, text);
    if first.lookups == 1 {
      assert Cached(first.cache, bucket);
    }
  }

  /** The GetBucketLocation reply texts of the examples: an empty reply means
      the default region, `EU` the legacy alias of `eu-west-1`. */
  lemma LocationTextExamples(client: Client, bucket: string, cache: RegionMap, lookup: Response)
    requires NeedsLookup(client, bucket, "", cache) && IsSuccess(lookup.status)
    ensures GetRegion(client, bucket, "", cache, lookup, "").result == Ok("us-east-1")
    ensures GetRegion(client, bucket, "", cache, lookup, "EU").result == Ok("eu-west-1")
    ensures GetRegion(client, bucket, "", cache, lookup, "ap-south-1").result == Ok("ap-south-1")
  {
  }

  /** The CreateBucket request `make_bucket` sends: the region it is signed
      for and the `LocationConstraint` of its body (None when there is no body). */
  datatype BucketRequest = BucketRequest(region: string, locationConstraint: Option<string>, objectLock: bool)

  /** The checks and request composition of `make_bucket`. `nameAccepted` is
      the verdict of the bucket-name check, which never accepts the empty name. */
  function MakeBucketRequest(client: Client, bucket: string, location: string, objectLock: bool,
                             nameAccepted: bool): (r: Result<BucketRequest>)
    requires nameAccepted ==> bucket != ""
    ensures r.Ok? <==> nameAccepted && (client.region == "" || location == "" || location == client.region)
    ensures r.Ok? ==> r.value.region == (if location == "" then DefaultRegion else location)
    ensures r.Ok? ==> (r.value.locationConstraint.Some? <==> r.value.region != DefaultRegion)
    ensures r.Ok? && r.value.locationConstraint.Some? ==> r.value.locationConstraint.value == location
    ensures r.Ok? ==> r.value.objectLock == objectLock
  {
    if !nameAccepted then
      Err(ValueError("invalid bucket name"))
    else if client.region != "" && location != "" && client.region != location then
      Err(ValueError(MismatchMessage(client.region, location)))
    else
      var region := if location == "" then DefaultRegion else location;
      Ok(BucketRequest(region, if region != DefaultRegion then Some(region) else None, objectLock))
  }

  /** The outcome of `make_bucket`: the request sent (or the exception) and the cache afterwards. */
  datatype Made = Made(result: Result<BucketRequest>, cache: RegionMap)

  /** `make_bucket`: validate, send CreateBucket, and on success remember the
      bucket's region. `resp` is the service's reply. */
  function MakeBucket(client: Client, bucket: string, location: string, objectLock: bool,
                      nameAccepted: bool, resp: Response, cache: RegionMap): (m: Made)
    requires nameAccepted ==> bucket != ""
    ensures m.result.Ok? ==>
      MakeBucketRequest(client, bucket, location, objectLock, nameAccepted) == m.result &&
      IsSuccess(resp.status) && m.cache == cache[bucket := m.result.value.region]
    ensures MakeBucketRequest(client, bucket, location, objectLock, nameAccepted).Err? ==>
      m.result == MakeBucketRequest(client, bucket, location, objectLock, nameAccepted) && m.cache == cache
    ensures MakeBucketRequest(client, bucket, location, objectLock, nameAccepted).Ok? ==>
      (m.result.Ok? <==> IsSuccess(resp.status))
    ensures MakeBucketRequest(client, bucket, location, objectLock, nameAccepted).Ok? && !IsSuccess(resp.status) ==>
      var o := Open("PUT", bucket, "", resp, cache);
      m.result == Err(o.result.error) && m.cache == o.cache
    ensures m.result.Err? ==> m.cache.Keys <= cache.Keys
    ensures ValidCache(cache) ==> ValidCache(m.cache)
  {
    match MakeBucketRequest(client, bucket, location, objectLock, nameAccepted)
    case Err(e) => Made(Err(e), cache)
    case Ok(req) =>
      var o := Open("PUT", bucket, "", resp, cache);
      if o.result.Err? then Made(Err(o.result.error), o.cache)
      else Made(Ok(req), o.cache[bucket := req.region])
  }

  /** After a successful `make_bucket`, resolving the bucket's region needs no
      request and yields the region it was created in. */
  lemma MadeBucketResolvesWithoutLookup(client: Client, bucket: string, location: string, objectLock: bool,
                                        resp: Response, cache: RegionMap, lookup: Response, text: string)
    requires bucket != ""
    requires MakeBucket(client, bucket, location, objectLock, true, resp, cache).result.Ok?
    ensures var m := MakeBucket(client, bucket, location, objectLock, true, resp, cache);
            var r := GetRegion(client, bucket, "", m.cache, lookup, text);
            r.lookups == 0 &&
            (client.region == "" && client.hasProvider ==> r.result == Ok(m.result.value.region))
  {
  }
}

=== FILE: text.dfy ===
/** String and sequence helpers the request code relies on: Python's
    `str.split` on one separator, `str(n)` for natural numbers, removing or
    adding the quotes around an ETag, and the concatenation of a sequence
    of sequences. */
module Text {

  /** Joins `parts` with `d` between neighbours (Python's `d.join(parts)`). */
  function Join(parts: seq<string>, d: char): string
    requires |parts| >= 1
    decreases |parts|
  {
    if |parts| == 1 then parts[0] else parts[0] + [d] + Join(parts[1..], d)
  }

  /** Python's `s.split(d)`: the maximal pieces of `s` between occurrences of `d`.
      The empty string splits into one empty piece. */
  function Split(s: string, d: char): (parts: seq<string>)
    ensures |parts| >= 1
    ensures forall i :: 0 <= i < |parts| ==> d !in parts[i]
    ensures Join(parts, d) == s
    decreases |s|
  {
    if |s| == 0 then [""]
    else
      var rest := Split(s[1..], d);
      if s[0] == d then
        [""] + rest
      else
        JoinHead(rest, d);
        [[s[0]] + rest[0]] + rest[1..]
  }

  /** Unfolds `Join` once when the first piece is extended at its front. */
  lemma JoinHead(parts: seq<string>, d: char)
    requires |parts| >= 1
    ensures forall c: char {:trigger [c] + parts[0]} ::
      Join([[c] + parts[0]] + parts[1..], d) == [c] + Join(parts, d)
  {
    forall c: char
      ensures Join([[c] + parts[0]] + parts[1..], d) == [c] + Join(parts, d)
    {
      var q := [[c] + parts[0]] + parts[1..];
      assert q[1..] == parts[1..];
    }
  }

  /** A piece without `d` splits into itself. */
  lemma {:induction false} SplitNoSeparator(s: string, d: char)
    requires d !in s
    ensures Split(s, d) == [s]
    decreases |s|
  {
    if |s| > 0 {
      assert d !in s[1..] by {
        forall i | 0 <= i < |s[1..]| ensures s[1..][i] != d {
          assert s[1..][i] == s[i + 1];
        }
      }
      SplitNoSeparator(s[1..], d);
      assert [s[0]] + s[1..] == s;
    }
  }

  /** Splitting `x + d + y`, where `x` holds no `d`, yields `x` then the pieces of `y`. */
  lemma {:induction false} SplitAtFirst(x: string, y: string, d: char)
    requires d !in x
    ensures Split(x + [d] + y, d) == [x] + Split(y, d)
    decreases |x|
  {
    if |x| == 0 {
      assert x + [d] + y == [d] + y;
      assert ([d] + y)[1..] == y;
    } else {
      var s := x + [d] + y;
      assert s[0] == x[0];
      assert s[1..] == x[1..] + [d] + y;
      assert d !in x[1..] by {
        forall i | 0 <= i < |x[1..]| ensures x[1..][i] != d {
          assert x[1..][i] == x[i + 1];
        }
      }
      SplitAtFirst(x[1..], y, d);
      assert [x[0]] + x[1..] == x;
    }
  }

  /** Two pieces free of `d`, joined by `d`, split back into the two pieces. */
  lemma SplitTwo(x: string, y: string, d: char)
    requires d !in x && d !in y
    ensures Split(x + [d] + y, d) == [x, y]
  {
    SplitAtFirst(x, y, d);
    SplitNoSeparator(y, d);
  }

  /** Round trip in the other direction: pieces free of `d` are recovered by splitting their join. */
  lemma {:induction false} SplitJoin(parts: seq<string>, d: char)
    requires |parts| >= 1
    requires forall i :: 0 <= i < |parts| ==> d !in parts[i]
    ensures Split(Join(parts, d), d) == parts
    decreases |parts|
  {
    if |parts| == 1 {
      SplitNoSeparator(parts[0], d);
    } else {
      assert d !in parts[0];
      SplitJoin(parts[1..], d);
      SplitAtFirst(parts[0], Join(parts[1..], d), d);
      assert [parts[0]] + parts[1..] == parts;
    }
  }

  /** The decimal digit for `n`. */
  function Digit(n: nat): char
    requires n < 10
  {
    "0123456789"[n]
  }

  predicate IsDigits(s: string) {
    forall i :: 0 <= i < |s| ==> '0' <= s[i] <= '9'
  }

  /** Python's `str(n)` for a natural number: decimal, no leading zeros. */
  function Decimal(n: nat): (s: string)
    ensures |s| >= 1 && IsDigits(s)
    ensures |s| > 1 ==> s[0] != '0'
    decreases n
  {
    if n < 10 then [Digit(n)] else Decimal(n / 10) + [Digit(n % 10)]
  }

  /** Reads a string of decimal digits back as a number (Python's `int(s)`). */
  function ParseDecimal(s: string): nat
    requires IsDigits(s)
    decreases |s|
  {
    if |s| == 0 then 0
    else ParseDecimal(s[..|s| - 1]) * 10 + (s[|s| - 1] as int - '0' as int)
  }

  /** `int(str(n)) == n`. */
  lemma {:induction false} DecimalRoundTrip(n: nat)
    ensures ParseDecimal(Decimal(n)) == n
    decreases n
  {
    var s := Decimal(n);
    if n >= 10 {
      DecimalRoundTrip(n / 10);
      assert s[..|s| - 1] == Decimal(n / 10);
    }
  }

  /** `s.replace('"', "")`: every double-quote character removed. */
  function StripQuotes(s: string): (r: string)
    ensures '"' !in r
    ensures |r| <= |s|
    ensures '"' !in s ==> r == s
    decreases |s|
  {
    if |s| == 0 then ""
    else if s[0] == '"' then StripQuotes(s[1..])
    else
      assert s == [s[0]] + s[1..];
      [s[0]] + StripQuotes(s[1..])
  }

  /** `'"' + s + '"'`: the quoted form an ETag takes on the wire. */
  function Quote(s: string): string {
    "\"" + s + "\""
  }

  /** Stripping the quotes off a quoted quote-free tag gives the tag back. */
  lemma {:induction false} StripQuoteRoundTrip(s: string)
    requires '"' !in s
    ensures StripQuotes(Quote(s)) == s
  {
    var q := Quote(s);
    assert q[0] == '"';
    assert q[1..] == s + "\"";
    StripAppend(s, "\"");
  }

  /** Quote removal distributes over concatenation. */
  lemma {:induction false} StripAppend(a: string, b: string)
    ensures StripQuotes(a + b) == StripQuotes(a) + StripQuotes(b)
    decreases |a|
  {
    if |a| == 0 {
      assert a + b == b;
    } else {
      assert (a + b)[0] == a[0];
      assert (a + b)[1..] == a[1..] + b;
      StripAppend(a[1..], b);
    }
  }

  /** The concatenation of all the sequences in `xss`, in order. */
  function Flatten<T>(xss: seq<seq<T>>): seq<T>
    decreases |xss|
  {
    if |xss| == 0 then [] else Flatten(xss[..|xss| - 1]) + xss[|xss| - 1]
  }

  lemma FlattenAppend<T>(xss: seq<seq<T>>, xs: seq<T>)
    ensures Flatten(xss + [xs]) == Flatten(xss) + xs
  {
    assert (xss + [xs])[..|xss|] == xss;
  }

  lemma {:induction false} FlattenCons<T>(xs: seq<T>, rest: seq<seq<T>>)
    ensures Flatten([xs] + rest) == xs + Flatten(rest)
    decreases |rest|
  {
    if |rest| == 0 {
      assert [xs] + rest == [xs];
      assert [xs][..0] == [];
    } else {
      var init := rest[..|rest| - 1];
      var last := rest[|rest| - 1];
      assert [xs] + rest == ([xs] + init) + [last];
      assert rest == init + [last];
      FlattenAppend([xs] + init, last);
      FlattenCons(xs, init);
      FlattenAppend(init, last);
    }
  }

  /** The concatenation of the first `k` sequences is a prefix of the whole. */
  lemma {:induction false} FlattenPrefix<T>(xss: seq<seq<T>>, k: nat)
    requires k <= |xss|
    ensures Flatten(xss[..k]) <= Flatten(xss)
    decreases |xss| - k
  {
    if k < |xss| {
      var init := xss[..|xss| - 1];
      assert xss == init + [xss[|xss| - 1]];
      assert init[..k] == xss[..k];
      FlattenPrefix(init, k);
      FlattenAppend(init, xss[|xss| - 1]);
    } else {
      assert xss[..k] == xss;
    }
  }
}

=== FILE: upload.dfy ===
/** `put_object` in minio/api.py: cut the input stream into parts, upload
    them one by one or through a worker pool, complete the multipart upload,
    and abort it when anything fails once an upload id exists.

    The stream is the byte sequence `data`; reading it has no observable
    effect besides the bytes obtained, so the model first runs the reading
    loop (`ReadParts`) and then replays the requests the loop body issues
    for the parts it read (`TryUpload`), which yields the same requests in
    the same order as the interleaved loop. */
module Upload {
  import opened Errors
  import opened Text

  type Bytes = seq<bv8>

  /** Reference definition of how a stream of unknown length is cut: full
      parts of `size` bytes while more than `size` bytes remain, then one
      final part of at most `size` bytes (possibly empty for an empty stream). */
  function StreamParts(data: Bytes, size: nat): (parts: seq<Bytes>)
    requires size > 0
    ensures |parts| >= 1
    decreases |data|
  {
    if |data| <= size then [data] else [data[..size]] + StreamParts(data[size..], size)
  }

  /** The cut reassembles to the stream, every part but the last is full, and
      the number of parts is the smallest that holds the stream: a stream of
      exactly k full parts gives k parts, not k + 1. */
  lemma {:induction false} StreamPartsShape(data: Bytes, size: nat)
    requires size > 0
    ensures var parts := StreamParts(data, size);
      && Flatten(parts) == data
      && (forall i :: 0 <= i < |parts| - 1 ==> |parts[i]| == size)
      && |parts[|parts| - 1]| <= size
      && (|data| > 0 ==> (|parts| - 1) * size < |data| <= |parts| * size)
    decreases |data|
  {
    var parts := StreamParts(data, size);
    if |data| <= size {
      assert parts == [data];
      assert Flatten([data]) == Flatten([]) + data;
    } else {
      var rest := StreamParts(data[size..], size);
      assert parts == [data[..size]] + rest;
      StreamPartsShape(data[size..], size);
      FlattenCons(data[..size], rest);
      assert data[..size] + data[size..] == data;
      assert (|parts| - 1) * size == (|rest| - 1) * size + size;
      assert |parts| * size == |rest| * size + size;
    }
  }

  /** Exactly `k` full parts when the stream length is `k` times the part size. */
  lemma ExactMultipleParts(data: Bytes, size: nat, k: nat)
    requires size > 0 && k > 0 && |data| == k * size
    ensures |StreamParts(data, size)| == k
  {
    StreamPartsShape(data, size);
    var n := |StreamParts(data, size)|;
    assert (n - 1) * size < k * size <= n * size;
    if n < k {
      // n parts hold at most (k - 1) * size < k * size bytes.
      MulLe(n, k - 1, size);
      MulSucc(k - 1, size);
      assert false;
    } else if n > k {
      // k * size bytes would fit in n - 1 >= k parts.
      MulLe(k, n - 1, size);
      assert false;
    }
  }

  lemma MulSucc(a: nat, c: nat)
    ensures (a + 1) * c == a * c + c
  {
  }

  lemma MulLe(a: nat, b: nat, c: nat)
    requires a <= b
    ensures a * c <= b * c
  {
  }

  /** `read_part_data(stream, size, prefix)`: the carried `prefix` followed by
      as many bytes of the stream from `pos` on as are needed to reach `size`
      bytes, or fewer when the stream ends first. */
  function ReadPart(data: Bytes, pos: nat, size: nat, prefix: Bytes): (r: Bytes)
    requires pos <= |data| && |prefix| <= size
    ensures |prefix| <= |r| <= size
    ensures r[..|prefix|] == prefix
  {
    var end := if pos + (size - |prefix|) <= |data| then pos + (size - |prefix|) else |data|;
    prefix + data[pos..end]
  }

  /** The reading loop of `put_object` (minio/api.py:1305-1334) when the part
      count is known (`get_part_info` derived it from a declared `length`):
      every part but the last has `partSize` bytes, the last is the rest of
      `length`, and a part that cannot be read in full is an `IOError`. */
  method ReadKnown(data: Bytes, length: int, partSize: nat, partCount: nat)
      returns (parts: seq<Bytes>, short: Option<Error>)
    requires partCount > 0 && 0 <= (partCount - 1) * partSize <= length
    ensures short.None? <==> |data| >= length
    ensures short.None? ==>
      && |parts| == partCount
      && Flatten(parts) == data[..length]
      && (forall i :: 0 <= i < |parts| - 1 ==> |parts[i]| == partSize)
    ensures short.Some? ==>
      && |parts| < partCount
      && |parts| * partSize <= |data|
      && Flatten(parts) == data[..|parts| * partSize]
      && (forall i :: 0 <= i < |parts| ==> |parts[i]| == partSize)
      && short.value.IOError?
      && short.value.got == |data| - |parts| * partSize < short.value.expected
  {
    var uploadedSize := 0;
    var partNumber := 0;
    var stop := false;
    parts := [];
    short := None;
    while !stop
      invariant |parts| == partNumber
      invariant 0 <= uploadedSize <= |data|
      invariant Flatten(parts) == data[..uploadedSize]
      invariant !stop ==>
        partNumber < partCount && uploadedSize == partNumber * partSize &&
        (forall i :: 0 <= i < |parts| ==> |parts[i]| == partSize)
      invariant stop ==>
        uploadedSize == length && |parts| == partCount &&
        (forall i :: 0 <= i < |parts| - 1 ==> |parts[i]| == partSize)
      decreases (if stop then 0 else 1), partCount - partNumber
    {
      partNumber := partNumber + 1;
      var want := partSize;
      if partNumber == partCount {
        want := length - uploadedSize;
        stop := true;
      } else {
        MulLe(partNumber, partCount - 1, partSize);
        MulSucc(partNumber - 1, partSize);
        assert uploadedSize + want <= length;
      }
      var partData := ReadPart(data, uploadedSize, want, []);
      if |partData| != want {
        assert |data| < uploadedSize + want <= length;
        short := Some(IOError(want, |partData|));
        return;
      }
      assert partData == data[uploadedSize..uploadedSize + want];
      FlattenAppend(parts, partData);
      uploadedSize := uploadedSize + |partData|;
      parts := parts + [partData];
    }
  }

  /** Reading on from `pos` with the bytes `start..pos` carried over yields
      the next `size` bytes from `start`, or the rest of the stream. */
  lemma ReadPartSlice(data: Bytes, start: nat, pos: nat, size: nat, prefix: Bytes)
    requires start <= pos <= |data| && prefix == data[start..pos] && |prefix| <= size
    ensures ReadPart(data, pos, size, prefix) ==
      data[start..if start + size <= |data| then start + size else |data|]
  {
  }

  /** The last read of the loop: the rest of the stream fits in one part. */
  lemma StreamFinish(data: Bytes, parts: seq<Bytes>, from: nat, size: nat)
    requires size > 0 && from <= |data| && |data| - from <= size
    requires parts + StreamParts(data[from..], size) == StreamParts(data, size)
    ensures parts + [data[from..]] == StreamParts(data, size)
  {
  }

  /** A full part read: the loop's account of the cut moves on by one part. */
  lemma StreamAdvance(data: Bytes, parts: seq<Bytes>, from: nat, size: nat)
    requires size > 0 && from + size < |data|
    requires parts + StreamParts(data[from..], size) == StreamParts(data, size)
    ensures (parts + [data[from..from + size]]) + StreamParts(data[from + size..], size) == StreamParts(data, size)
  {
    StreamStep(data, from, size);
    assert (parts + [data[from..from + size]]) + StreamParts(data[from + size..], size)
        == parts + ([data[from..from + size]] + StreamParts(data[from + size..], size));
  }

  lemma StreamStep(data: Bytes, from: nat, size: nat)
    requires size > 0 && from + size < |data|
    ensures StreamParts(data[from..], size) ==
      [data[from..from + size]] + StreamParts(data[from + size..], size)
  {
    var rest := data[from..];
    assert rest[..size] == data[from..from + size];
    assert rest[size..] == data[from + size..];
  }

  /** The reading loop of `put_object` (minio/api.py:1305-1334) when the
      length is unknown: `partSize + 1` bytes are read per part and the extra
      byte is carried into the next part, so a part is the last exactly when
      the read comes back with at most `partSize` bytes. */
  method ReadStream(data: Bytes, partSize: nat) returns (parts: seq<Bytes>)
    requires partSize > 0
    ensures parts == StreamParts(data, partSize)
  {
    var uploadedSize := 0;
    var oneByte: Bytes := [];
    var stop := false;
    var pos := 0;
    parts := [];
    while !stop
      invariant 0 <= uploadedSize <= |data|
      invariant !stop ==>
        && pos == uploadedSize + |oneByte| && pos <= |data|
        && |oneByte| <= 1 && oneByte == data[uploadedSize..pos]
        && parts + StreamParts(data[uploadedSize..], partSize) == StreamParts(data, partSize)
      invariant stop ==> parts == StreamParts(data, partSize)
      decreases (if stop then 0 else 1), |data| - uploadedSize
    {
      var partData := ReadPart(data, pos, partSize + 1, oneByte);
      ReadPartSlice(data, uploadedSize, pos, partSize + 1, oneByte);
      pos := pos + (|partData| - |oneByte|);
      if |partData| <= partSize {
        StreamFinish(data, parts, uploadedSize, partSize);
        assert partData == data[uploadedSize..];
        stop := true;
      } else {
        StreamAdvance(data, parts, uploadedSize, partSize);
        oneByte := partData[|partData| - 1..];
        partData := partData[..|partData| - 1];
        assert partData == data[uploadedSize..uploadedSize + partSize];
        assert oneByte == data[uploadedSize + partSize..pos];
      }
      uploadedSize := uploadedSize + |partData|;
      parts := parts + [partData];
    }
  }

  /** How `put_object` cuts the object into parts: a stream of unknown length
      as `StreamParts` cuts it; a declared length into `partCount` parts that
      concatenate to the declared bytes, every part but the last `partSize`
      bytes long. */
  predicate PartsCut(parts: seq<Bytes>, data: Bytes, length: int, partSize: nat, partCount: int)
    requires partCount <= 0 ==> partSize > 0
  {
    if partCount <= 0 then parts == StreamParts(data, partSize)
    else
      && |parts| == partCount
      && 0 <= length <= |data|
      && Flatten(parts) == data[..length]
      && (forall i :: 0 <= i < |parts| - 1 ==> |parts[i]| == partSize)
  }

  /** Two part lists of the same length and concatenation whose parts but
      the last all have the same size are the same list. */
  lemma {:induction false} FullCutUnique(p: seq<Bytes>, q: seq<Bytes>, size: nat)
    requires |p| == |q| && Flatten(p) == Flatten(q)
    requires forall i :: 0 <= i < |p| - 1 ==> |p[i]| == size && |q[i]| == size
    ensures p == q
    decreases |p|
  {
    if |p| == 1 {
      assert p == [] + [p[0]] && q == [] + [q[0]];
      FlattenAppend([], p[0]);
      FlattenAppend([], q[0]);
      assert p[0] == Flatten(p) == Flatten(q) == q[0];
    } else if |p| > 1 {
      assert p == [p[0]] + p[1..] && q == [q[0]] + q[1..];
      FlattenCons(p[0], p[1..]);
      FlattenCons(q[0], q[1..]);
      var whole := Flatten(p);
      assert p[0] == whole[..size] == q[0];
      assert Flatten(p[1..]) == whole[size..] == Flatten(q[1..]);
      FullCutUnique(p[1..], q[1..], size);
    }
  }

  /** The cut is determined by the object: at most one part list meets it. */
  lemma PartsCutUnique(p: seq<Bytes>, q: seq<Bytes>, data: Bytes, length: int, partSize: nat, partCount: int)
    requires partCount <= 0 ==> partSize > 0
    requires PartsCut(p, data, length, partSize, partCount)
    requires PartsCut(q, data, length, partSize, partCount)
    ensures p == q
  {
    if partCount > 0 {
      FullCutUnique(p, q, partSize);
    }
  }

  /** Reading the stream for `put_object`: the parts, the part count (known in
      advance, or the number of parts the stream was cut into) and the short
      read that interrupted a stream of known length, if any. */
  method ReadParts(data: Bytes, length: int, partSize: nat, partCount: int)
      returns (parts: seq<Bytes>, count: nat, short: Option<Error>)
    requires partCount <= 0 ==> partSize > 0
    requires partCount > 0 ==> 0 <= (partCount - 1) * partSize <= length
    ensures partCount <= 0 ==> short.None? && parts == StreamParts(data, partSize) && count == |parts|
    ensures partCount > 0 ==> count == partCount && (short.None? <==> |data| >= length)
    ensures partCount > 0 && short.None? ==> |parts| == partCount && Flatten(parts) == data[..length]
    ensures partCount > 0 && short.None? ==> forall i :: 0 <= i < |parts| - 1 ==> |parts[i]| == partSize
    ensures partCount > 0 && short.Some? ==>
      && |parts| * partSize <= |data|
      && Flatten(parts) == data[..|parts| * partSize]
      && (forall i :: 0 <= i < |parts| ==> |parts[i]| == partSize)
    ensures short.None? ==> PartsCut(parts, data, length, partSize, partCount)
    ensures short.None? ==> |parts| == count
    ensures short.Some? ==> |parts| < count && partCount > 0 && |data| < length && short.value.IOError?
  {
    if partCount > 0 {
      parts, short := ReadKnown(data, length, partSize, partCount);
      count := partCount;
    } else {
      parts := ReadStream(data, partSize);
      count := |parts|;
      short := None;
    }
  }

  /** A part of a completed multipart upload: its 1-based number and its ETag
      without quotes. */
  datatype Part = Part(number: nat, etag: string)

  /** The requests `put_object` sends, in order. */
  datatype Call =
    | PutWhole(data: Bytes)
    | CreateUpload
    | UploadPart(uploadId: string, number: nat, data: Bytes)
    | CompleteUpload(uploadId: string, parts: seq<Part>)
    | AbortUpload(uploadId: string)

  /** How the service answers each request: the raw `ETag` header of a
      PutObject or UploadPart reply, the `UploadId` of CreateMultipartUpload,
      the final ETag of CompleteMultipartUpload, and the exception (if any)
      AbortMultipartUpload raises. */
  datatype Service = Service(
    put: Bytes -> Result<string>,
    create: Result<string>,
    uploadPart: (string, nat, Bytes) -> Result<string>,
    complete: (string, seq<Part>) -> Result<string>,
    abort: string -> Option<Error>)

  /** The ETag `_put_object` returns for a reply: the header without quotes. */
  function EtagOf(reply: Result<string>): (r: Result<string>)
    ensures r.Ok? <==> reply.Ok?
    ensures r.Ok? ==> '"' !in r.value
    ensures reply.Ok? && '"' !in reply.value ==> r == reply
    ensures reply.Err? ==> r == reply
  {
    match reply
    case Ok(tag) => Ok(StripQuotes(tag))
    case Err(e) => Err(e)
  }

  /** The ETag of a reply whose header is a quoted tag is the tag itself. */
  lemma EtagOfQuoted(tag: string)
    requires '"' !in tag
    ensures EtagOf(Ok(Quote(tag))) == Ok(tag)
  {
    StripQuoteRoundTrip(tag);
  }

  /** The unquoted ETag the service gives part `n` with payload `d` ("" if it fails). */
  function PartEtag(svc: Service, id: string, n: nat, d: Bytes): string {
    match svc.uploadPart(id, n, d)
    case Ok(tag) => StripQuotes(tag)
    case Err(_) => ""
  }

  /** The completion list for `parts`: part i + 1 with the ETag of its upload. */
  function CompletedParts(svc: Service, id: string, parts: seq<Bytes>): (ps: seq<Part>)
    ensures |ps| == |parts|
    ensures forall i :: 0 <= i < |ps| ==> ps[i].number == i + 1
  {
    seq(|parts|, i requires 0 <= i < |parts| => Part(i + 1, PartEtag(svc, id, i + 1, parts[i])))
  }

  /** The `(PartNumber, ETag)` elements of the CompleteMultipartUpload body
      (minio/api.py:1183-1187): each ETag is wrapped in quotes again. */
  function CompletionBody(ps: seq<Part>): (body: seq<(nat, string)>)
    ensures |body| == |ps|
    ensures forall i :: 0 <= i < |ps| ==> body[i].0 == ps[i].number
  {
    seq(|ps|, i requires 0 <= i < |ps| => (ps[i].number, Quote(ps[i].etag)))
  }

  /** The body of a completion sends back exactly the ETags the part uploads
      returned: stripping the quotes again recovers each part's ETag. */
  lemma CompletionBodyRoundTrip(svc: Service, id: string, parts: seq<Bytes>, i: nat)
    requires i < |parts|
    ensures var body := CompletionBody(CompletedParts(svc, id, parts));
      body[i].0 == i + 1 && StripQuotes(body[i].1) == PartEtag(svc, id, i + 1, parts[i])
  {
    var ps := CompletedParts(svc, id, parts);
    assert ps[i].etag == PartEtag(svc, id, i + 1, parts[i]);
    StripQuoteRoundTrip(ps[i].etag);
  }

  /** True when `arrival` lists each of the `n` submitted tasks exactly once:
      the order in which the worker pool hands back results. */
  predicate IsArrivalOrder(arrival: seq<nat>, n: nat) {
    && |arrival| == n
    && (forall j :: 0 <= j < n ==> arrival[j] < n)
    && (forall j, k :: 0 <= j < k < n ==> arrival[j] != arrival[k])
    && (forall m :: 0 <= m < n ==> m in arrival)
  }

  /** The pool's order: `arrival` when it is one, submission order otherwise. */
  function PoolOrder(arrival: seq<nat>, n: nat): (o: seq<nat>)
    ensures IsArrivalOrder(o, n)
  {
    if IsArrivalOrder(arrival, n) then arrival
    else
      var id := seq(n, j requires 0 <= j < n => j);
      forall m | 0 <= m < n
        ensures m in id
      {
        assert id[m] == m;
      }
      id
  }

  /** The part numbers of the pool's results, in arrival order. */
  function Numbers(results: seq<(nat, string)>): (ns: seq<nat>)
    ensures |ns| == |results|
    ensures forall j :: 0 <= j < |results| ==> ns[j] == results[j].0
  {
    seq(|results|, j requires 0 <= j < |results| => results[j].0)
  }

  /** `[None] * part_count` filled from the pool's `(part_number, etag)`
      results, each at index `part_number - 1` (minio/api.py:1361-1365). */
  method Reassemble(results: seq<(nat, string)>, count: nat) returns (parts: seq<Part>)
    requires |results| == count
    requires forall j :: 0 <= j < count ==> 1 <= results[j].0 <= count
    requires forall j, k :: 0 <= j < k < count ==> results[j].0 != results[k].0
    requires forall m :: 1 <= m <= count ==> m in Numbers(results)
    ensures |parts| == count
    ensures forall i :: 0 <= i < count ==> parts[i].number == i + 1
    ensures forall j :: 0 <= j < count ==> parts[results[j].0 - 1] == Part(results[j].0, results[j].1)
  {
    parts := seq(count, i => Part(0, ""));
    var j := 0;
    while j < count
      invariant 0 <= j <= count && |parts| == count
      invariant forall k :: 0 <= k < j ==> parts[results[k].0 - 1] == Part(results[k].0, results[k].1)
    {
      var (n, etag) := results[j];
      parts := parts[n - 1 := Part(n, etag)];
      j := j + 1;
    }
    forall i | 0 <= i < count
      ensures parts[i].number == i + 1
    {
      assert i + 1 in Numbers(results);
      var j :| 0 <= j < count && Numbers(results)[j] == i + 1;
    }
  }

  /** The pool's results in arrival order: for each finished task, its part
      number and the service's reply. */
  function PoolResults(svc: Service, id: string, pooled: seq<Bytes>, order: seq<nat>): (rs: seq<(nat, Result<string>)>)
    requires |order| == |pooled| && forall j :: 0 <= j < |order| ==> order[j] < |pooled|
    ensures |rs| == |pooled|
    ensures forall j :: 0 <= j < |rs| ==> rs[j].0 == order[j] + 1
    ensures forall j :: 0 <= j < |rs| ==> rs[j].1 == EtagOf(svc.uploadPart(id, order[j] + 1, pooled[order[j]]))
  {
    seq(|pooled|, j requires 0 <= j < |pooled| => (order[j] + 1, EtagOf(svc.uploadPart(id, order[j] + 1, pooled[order[j]]))))
  }

  /** The exception `pool.result()` raises: that of the first failed task in arrival order. */
  function FirstFailure(rs: seq<(nat, Result<string>)>): (e: Option<Error>)
    ensures e.None? <==> forall j :: 0 <= j < |rs| ==> rs[j].1.Ok?
    ensures e.Some? ==> exists j :: 0 <= j < |rs| && rs[j].1 == Err(e.value)
    decreases |rs|
  {
    if |rs| == 0 then None
    else if rs[0].1.Err? then Some(rs[0].1.error)
    else
      var e := FirstFailure(rs[1..]);
      assert forall j :: 1 <= j < |rs| ==> rs[1..][j - 1] == rs[j];
      e
  }

  /** The `(part_number, etag)` pairs the pool hands back when every upload
      succeeded, in arrival order. */
  function PoolEtags(svc: Service, id: string, pooled: seq<Bytes>, order: seq<nat>): (etags: seq<(nat, string)>)
    requires IsArrivalOrder(order, |pooled|)
    ensures |etags| == |pooled|
    ensures forall j :: 0 <= j < |etags| ==> etags[j] == (order[j] + 1, PartEtag(svc, id, order[j] + 1, pooled[order[j]]))
  {
    seq(|pooled|, j requires 0 <= j < |pooled| => (order[j] + 1, PartEtag(svc, id, order[j] + 1, pooled[order[j]])))
  }

  /** Every part number from 1 to n arrives once in the pool's results. */
  lemma ArrivalCoversParts(etags: seq<(nat, string)>, order: seq<nat>, n: nat)
    requires IsArrivalOrder(order, n) && |etags| == n
    requires forall j :: 0 <= j < n ==> etags[j].0 == order[j] + 1
    ensures forall m :: 1 <= m <= n ==> m in Numbers(etags)
  {
    forall m | 1 <= m <= n
      ensures m in Numbers(etags)
    {
      assert m - 1 in order;
      var j :| 0 <= j < n && order[j] == m - 1;
      assert Numbers(etags)[j] == m;
    }
  }

  /** The part list the parallel branch completes with, whatever order the pool used. */
  method PoolParts(svc: Service, id: string, pooled: seq<Bytes>, order: seq<nat>) returns (ps: seq<Part>)
    requires IsArrivalOrder(order, |pooled|)
    ensures ps == CompletedParts(svc, id, pooled)
  {
    var n := |pooled|;
    var etags := PoolEtags(svc, id, pooled, order);
    ArrivalCoversParts(etags, order, n);
    ps := Reassemble(etags, n);
    forall i | 0 <= i < n
      ensures ps[i] == CompletedParts(svc, id, pooled)[i]
    {
      assert i in order;
      var j :| 0 <= j < n && order[j] == i;
      assert etags[j] == (i + 1, PartEtag(svc, id, i + 1, pooled[i]));
    }
  }

  /** True when `e` was raised by one of the requests in `calls` (and not by an abort). */
  predicate RaisedBy(e: Error, svc: Service, calls: seq<Call>) {
    exists j :: 0 <= j < |calls| &&
      match calls[j]
      case PutWhole(d) => svc.put(d) == Err(e)
      case CreateUpload => svc.create == Err(e)
      case UploadPart(id, n, d) => svc.uploadPart(id, n, d) == Err(e)
      case CompleteUpload(id, ps) => svc.complete(id, ps) == Err(e)
      case AbortUpload(_) => false
  }

  /** The UploadPart requests for `parts`, numbered from 1. */
  function UploadCalls(id: string, parts: seq<Bytes>): (cs: seq<Call>)
    ensures |cs| == |parts|
    ensures forall i :: 0 <= i < |cs| ==> cs[i] == UploadPart(id, i + 1, parts[i])
  {
    seq(|parts|, i requires 0 <= i < |parts| => UploadPart(id, i + 1, parts[i]))
  }

  /** Every part's UploadPart request under upload id `id` succeeds. */
  predicate AllPartsOk(svc: Service, id: string, parts: seq<Bytes>) {
    forall k :: 0 <= k < |parts| ==> svc.uploadPart(id, k + 1, parts[k]).Ok?
  }

  /** Every UploadPart request in `calls` succeeds. */
  predicate PartsSucceeded(svc: Service, calls: seq<Call>) {
    forall j :: 0 <= j < |calls| && calls[j].UploadPart? ==>
      svc.uploadPart(calls[j].uploadId, calls[j].number, calls[j].data).Ok?
  }

  /** The part loop of `put_object` for an upload of several parts: create
      the upload id before the first part, then upload each part at once
      (one worker) or hand it to the pool. Stops at the first exception. */
  method SendParts(parts: seq<Bytes>, parallel: nat, svc: Service)
      returns (failed: Option<Error>, calls: seq<Call>, uploadId: string, done: seq<Part>)
    requires svc.create.Ok? ==> svc.create.value != ""
    requires |parts| > 0
    ensures uploadId == "" <==> svc.create.Err?
    ensures uploadId == "" ==> calls == [CreateUpload] && failed == Some(svc.create.error)
    ensures uploadId != "" ==>
      && svc.create == Ok(uploadId)
      && 1 <= |calls| <= |parts| + 1
      && calls == [CreateUpload] + UploadCalls(uploadId, parts[..|calls| - 1])
    ensures failed.None? ==> uploadId != "" && |calls| == |parts| + 1
    ensures failed.None? && parallel <= 1 ==> done == CompletedParts(svc, uploadId, parts)
    ensures failed.None? && parallel <= 1 ==> AllPartsOk(svc, uploadId, parts)
    ensures failed.Some? && uploadId != "" ==>
      && parallel <= 1 && |calls| >= 2
      && AllPartsOk(svc, uploadId, parts[..|calls| - 2])
      && svc.uploadPart(uploadId, |calls| - 1, parts[|calls| - 2]) == Err(failed.value)
    ensures failed.Some? ==> RaisedBy(failed.value, svc, calls)
  {
    calls := [];
    uploadId := "";
    done := [];
    var i := 0;
    while i < |parts|
      invariant 0 <= i <= |parts|
      invariant i == 0 ==> calls == [] && uploadId == ""
      invariant i > 0 ==>
        && svc.create == Ok(uploadId) && uploadId != ""
        && calls == [CreateUpload] + UploadCalls(uploadId, parts[..i])
      invariant parallel <= 1 ==> done == CompletedParts(svc, uploadId, parts[..i])
      invariant parallel <= 1 ==> AllPartsOk(svc, uploadId, parts[..i])
    {
      var n := i + 1;
      if uploadId == "" {
        calls := calls + [CreateUpload];
        if svc.create.Err? {
          failed := Some(svc.create.error);
          assert calls[0] == CreateUpload;
          return;
        }
        uploadId := svc.create.value;
      }
      assert parts[..n] == parts[..i] + [parts[i]];
      calls := calls + [UploadPart(uploadId, n, parts[i])];
      assert calls == [CreateUpload] + UploadCalls(uploadId, parts[..n]);
      if parallel <= 1 {
        var reply := svc.uploadPart(uploadId, n, parts[i]);
        if reply.Err? {
          failed := Some(reply.error);
          assert calls[n] == UploadPart(uploadId, n, parts[i]);
          assert parts[..|calls| - 2] == parts[..i];
          return;
        }
        done := done + [Part(n, StripQuotes(reply.value))];
        assert done == CompletedParts(svc, uploadId, parts[..n]);
      }
      i := i + 1;
    }
    assert parts[..i] == parts;
    failed := None;
  }

  /** A failure the pool reports is the failure of one part's upload. */
  lemma PoolFailureFromPart(svc: Service, id: string, parts: seq<Bytes>, order: seq<nat>)
    requires |order| == |parts| && forall j :: 0 <= j < |order| ==> order[j] < |parts|
    requires FirstFailure(PoolResults(svc, id, parts, order)).Some?
    ensures var e := FirstFailure(PoolResults(svc, id, parts, order)).value;
      exists k :: 0 <= k < |parts| && svc.uploadPart(id, k + 1, parts[k]) == Err(e)
  {
    var results := PoolResults(svc, id, parts, order);
    var e := FirstFailure(results).value;
    var j :| 0 <= j < |results| && results[j].1 == Err(e);
    var k := order[j];
    assert EtagOf(svc.uploadPart(id, k + 1, parts[k])) == Err(e);
    assert svc.uploadPart(id, k + 1, parts[k]) == Err(e);
  }

  /** When the pool reports no failure, every part's upload succeeded. */
  lemma PoolWithoutFailure(svc: Service, id: string, parts: seq<Bytes>, order: seq<nat>)
    requires IsArrivalOrder(order, |parts|)
    requires FirstFailure(PoolResults(svc, id, parts, order)).None?
    ensures forall k :: 0 <= k < |parts| ==> svc.uploadPart(id, k + 1, parts[k]).Ok?
  {
    var results := PoolResults(svc, id, parts, order);
    forall k | 0 <= k < |parts|
      ensures svc.uploadPart(id, k + 1, parts[k]).Ok?
    {
      assert k in order;
      var j :| 0 <= j < |parts| && order[j] == k;
      assert results[j].1.Ok?;
    }
  }

  /** Waiting for the pool (minio/api.py:1359-1365): the first exception in
      arrival order, or the completion list in part order. */
  method CollectPool(svc: Service, id: string, parts: seq<Bytes>, arrival: seq<nat>)
      returns (failure: Option<Error>, ps: seq<Part>)
    ensures failure.Some? ==>
      exists k :: 0 <= k < |parts| && svc.uploadPart(id, k + 1, parts[k]) == Err(failure.value)
    ensures failure.None? ==> forall k :: 0 <= k < |parts| ==> svc.uploadPart(id, k + 1, parts[k]).Ok?
    ensures failure.None? ==> ps == CompletedParts(svc, id, parts)
  {
    var order := PoolOrder(arrival, |parts|);
    failure := FirstFailure(PoolResults(svc, id, parts, order));
    if failure.Some? {
      PoolFailureFromPart(svc, id, parts, order);
      ps := [];
    } else {
      PoolWithoutFailure(svc, id, parts, order);
      ps := PoolParts(svc, id, parts, order);
    }
  }

  /** What follows the part loop once every part was sent: the short-read
      error, then waiting for the pool. Yields the exception to raise, or the
      completion list. */
  method AwaitParts(parts: seq<Bytes>, short: Option<Error>, parallel: nat, arrival: seq<nat>,
                    svc: Service, uploadId: string, sent: seq<Part>)
      returns (failure: Option<Error>, done: seq<Part>)
    requires parallel <= 1 ==> sent == CompletedParts(svc, uploadId, parts)
    requires parallel <= 1 ==> AllPartsOk(svc, uploadId, parts)
    ensures failure.None? ==> short.None? && done == CompletedParts(svc, uploadId, parts)
    ensures failure.None? ==> AllPartsOk(svc, uploadId, parts)
    ensures failure.Some? ==>
      (short.Some? && failure == short) ||
      exists k :: 0 <= k < |parts| && svc.uploadPart(uploadId, k + 1, parts[k]) == Err(failure.value)
  {
    if short.Some? {
      return short, sent;
    }
    if parallel > 1 {
      failure, done := CollectPool(svc, uploadId, parts, arrival);
    } else {
      failure, done := None, sent;
    }
  }

  /** A multipart trace so far: UploadPart j, at position j, carries part j,
      and there is neither an abort nor a whole-object upload. */
  predicate PartTrace(calls: seq<Call>, id: string, parts: seq<Bytes>) {
    && (forall j :: 0 <= j < |calls| && calls[j].UploadPart? ==>
          1 <= j <= |parts| && calls[j] == UploadPart(id, j, parts[j - 1]))
    && (forall j :: 0 <= j < |calls| ==> !calls[j].AbortUpload? && !calls[j].PutWhole?)
  }

  /** Creating the upload and sending the first m parts leaves a multipart trace. */
  lemma UploadsTrace(id: string, parts: seq<Bytes>, m: nat)
    requires m <= |parts|
    ensures PartTrace([CreateUpload] + UploadCalls(id, parts[..m]), id, parts)
  {
    var calls := [CreateUpload] + UploadCalls(id, parts[..m]);
    forall j | 1 <= j < |calls|
      ensures calls[j] == UploadPart(id, j, parts[j - 1])
    {
      assert calls[j] == UploadCalls(id, parts[..m])[j - 1];
    }
  }

  /** Completing the upload keeps the trace a multipart trace. */
  lemma CompleteTrace(calls: seq<Call>, id: string, parts: seq<Bytes>, ps: seq<Part>)
    requires PartTrace(calls, id, parts)
    ensures PartTrace(calls + [CompleteUpload(id, ps)], id, parts)
  {
    var more := calls + [CompleteUpload(id, ps)];
    assert forall j :: 0 <= j < |calls| ==> more[j] == calls[j];
  }

  /** A part reported as failed is one of the UploadPart requests sent. */
  lemma PartFailureRaised(e: Error, svc: Service, id: string, parts: seq<Bytes>)
    requires exists k :: 0 <= k < |parts| && svc.uploadPart(id, k + 1, parts[k]) == Err(e)
    ensures RaisedBy(e, svc, [CreateUpload] + UploadCalls(id, parts))
  {
    var k :| 0 <= k < |parts| && svc.uploadPart(id, k + 1, parts[k]) == Err(e);
    var calls := [CreateUpload] + UploadCalls(id, parts);
    assert calls[k + 1] == UploadPart(id, k + 1, parts[k]);
  }

  /** The part loop, the short-read error, the pool and completion of
      `put_object` for an object of several parts. */
  method UploadSeveral(parts: seq<Bytes>, short: Option<Error>, parallel: nat, arrival: seq<nat>,
                       svc: Service)
      returns (r: Result<string>, calls: seq<Call>, uploadId: string)
    requires svc.create.Ok? ==> svc.create.value != ""
    requires |parts| > 0
    ensures uploadId != "" ==> svc.create == Ok(uploadId) && |calls| >= 1 && calls[0] == CreateUpload
    ensures uploadId == "" ==> calls == [CreateUpload] && svc.create.Err?
    ensures PartTrace(calls, uploadId, parts)
    ensures r.Ok? ==>
      && short.None?
      && uploadId != ""
      && calls == [CreateUpload] + UploadCalls(uploadId, parts)
                 + [CompleteUpload(uploadId, CompletedParts(svc, uploadId, parts))]
      && r == svc.complete(uploadId, CompletedParts(svc, uploadId, parts))
    ensures r.Ok? ==> AllPartsOk(svc, uploadId, parts)
    ensures r.Err? ==> (short.Some? && r == Err(short.value)) || RaisedBy(r.error, svc, calls)
  {
    var failed, done;
    failed, calls, uploadId, done := SendParts(parts, parallel, svc);
    if uploadId != "" {
      UploadsTrace(uploadId, parts, |calls| - 1);
    }
    if failed.Some? {
      r := Err(failed.value);
      return;
    }
    assert parts[..|calls| - 1] == parts;
    var failure;
    failure, done := AwaitParts(parts, short, parallel, arrival, svc, uploadId, done);
    if failure.Some? {
      r := Err(failure.value);
      if !(short.Some? && r == Err(short.value)) {
        PartFailureRaised(failure.value, svc, uploadId, parts);
      }
      return;
    }
    CompleteTrace(calls, uploadId, parts, done);
    calls := calls + [CompleteUpload(uploadId, done)];
    r := svc.complete(uploadId, done);
    if r.Err? {
      assert calls[|calls| - 1] == CompleteUpload(uploadId, done);
    }
  }

  /** The body of the `try` block of `put_object` for parts already read:
      the single-part shortcut, the part loop, the short-read error, the pool
      and completion. Returns the outcome, the requests sent and the upload
      id ("" when none was created). */
  method TryUpload(parts: seq<Bytes>, count: nat, short: Option<Error>, parallel: nat,
                   arrival: seq<nat>, svc: Service)
      returns (r: Result<string>, calls: seq<Call>, uploadId: string)
    requires svc.create.Ok? ==> svc.create.value != ""
    requires count >= 1 && |parts| <= count
    requires short.None? <==> |parts| == count
    ensures count == 1 && short.None? ==>
      calls == [PutWhole(parts[0])] && uploadId == "" && r == EtagOf(svc.put(parts[0]))
    ensures uploadId != "" ==> svc.create == Ok(uploadId) && |calls| >= 1 && calls[0] == CreateUpload
    ensures uploadId == "" ==> forall j :: 0 <= j < |calls| ==> calls[j].PutWhole? || calls[j] == CreateUpload
    ensures uploadId == "" && CreateUpload in calls ==> svc.create.Err?
    ensures forall j :: 0 <= j < |calls| && calls[j].UploadPart? ==>
      1 <= j <= |parts| && calls[j] == UploadPart(uploadId, j, parts[j - 1])
    ensures forall j :: 0 <= j < |calls| ==> !calls[j].AbortUpload?
    ensures forall j :: 0 <= j < |calls| && calls[j].PutWhole? ==>
      count == 1 && short.None? && calls == [PutWhole(parts[0])]
    ensures r.Ok? ==> short.None?
    ensures r.Ok? && count != 1 ==>
      && uploadId != ""
      && calls == [CreateUpload] + UploadCalls(uploadId, parts)
                 + [CompleteUpload(uploadId, CompletedParts(svc, uploadId, parts))]
      && r == svc.complete(uploadId, CompletedParts(svc, uploadId, parts))
      && AllPartsOk(svc, uploadId, parts)
    ensures r.Err? ==> (short.Some? && r == Err(short.value)) || RaisedBy(r.error, svc, calls)
  {
    if |parts| == 0 {
      r, calls, uploadId := Err(short.value), [], "";
      return;
    }
    if count == 1 {
      calls, uploadId := [PutWhole(parts[0])], "";
      r := EtagOf(svc.put(parts[0]));
      if r.Err? {
        assert calls[0] == PutWhole(parts[0]);
      }
      return;
    }
    r, calls, uploadId := UploadSeveral(parts, short, parallel, arrival, svc);
  }

  /** The `except` branch of `put_object`: when the `try` body raised and an
      upload id exists, abort the upload once, then re-raise. An exception
      raised by the abort itself propagates in place of the original one. */
  function Rethrow(tried: Result<string>, uploadId: string, svc: Service): (out: (Result<string>, seq<Call>))
    ensures tried.Ok? ==> out == (tried, [])
    ensures tried.Err? && uploadId == "" ==> out == (tried, [])
    ensures tried.Err? && uploadId != "" ==> out.1 == [AbortUpload(uploadId)]
    ensures tried.Err? && uploadId != "" && svc.abort(uploadId).None? ==> out.0 == tried
    ensures tried.Err? && uploadId != "" && svc.abort(uploadId).Some? ==> out.0 == Err(svc.abort(uploadId).value)
  {
    if tried.Ok? || uploadId == "" then (tried, [])
    else
      match svc.abort(uploadId)
      case None => (tried, [AbortUpload(uploadId)])
      case Some(e) => (Err(e), [AbortUpload(uploadId)])
  }

  /** The object bytes the upload must carry: the declared length of the
      stream when it is known, the whole stream otherwise. */
  function ObjectBytes(data: Bytes, length: int, partCount: int): Bytes {
    if partCount > 0 && 0 <= length <= |data| then data[..length] else data
  }

  /** The payloads of the UploadPart requests in `calls`, in order. */
  function UploadedData(calls: seq<Call>): seq<Bytes>
    decreases |calls|
  {
    if |calls| == 0 then []
    else
      var init := UploadedData(calls[..|calls| - 1]);
      match calls[|calls| - 1]
      case UploadPart(_, _, d) => init + [d]
      case _ => init
  }

  /** The payloads of a multipart trace are the parts, in order. */
  lemma {:induction false} UploadedDataOfUploads(id: string, parts: seq<Bytes>, ps: seq<Part>)
    ensures UploadedData([CreateUpload] + UploadCalls(id, parts) + [CompleteUpload(id, ps)]) == parts
  {
    var calls := [CreateUpload] + UploadCalls(id, parts) + [CompleteUpload(id, ps)];
    assert calls[..|calls| - 1] == [CreateUpload] + UploadCalls(id, parts);
    UploadsPrefix(id, parts);
  }

  lemma {:induction false} UploadsPrefix(id: string, parts: seq<Bytes>)
    ensures UploadedData([CreateUpload] + UploadCalls(id, parts)) == parts
    decreases |parts|
  {
    var calls := [CreateUpload] + UploadCalls(id, parts);
    if |parts| == 0 {
      assert calls == [CreateUpload];
      assert calls[..0] == [];
    } else {
      var init := parts[..|parts| - 1];
      UploadsPrefix(id, init);
      var cs := UploadCalls(id, parts);
      assert UploadCalls(id, init) == cs[..|init|];
      assert calls[..|calls| - 1] == [CreateUpload] + UploadCalls(id, init);
      assert calls[|calls| - 1] == UploadPart(id, |parts|, parts[|parts| - 1]);
      assert UploadedData(calls) == init + [parts[|parts| - 1]];
      assert init + [parts[|parts| - 1]] == parts;
    }
  }

  /** An exception raised by a request stays attributed to it when more requests follow. */
  lemma RaisedByExtends(e: Error, svc: Service, calls: seq<Call>, more: seq<Call>)
    requires RaisedBy(e, svc, calls)
    ensures RaisedBy(e, svc, calls + more)
  {
    var j :| 0 <= j < |calls| && match calls[j]
      case PutWhole(d) => svc.put(d) == Err(e)
      case CreateUpload => svc.create == Err(e)
      case UploadPart(id, n, d) => svc.uploadPart(id, n, d) == Err(e)
      case CompleteUpload(id, ps) => svc.complete(id, ps) == Err(e)
      case AbortUpload(_) => false;
    assert (calls + more)[j] == calls[j];
  }

  /** In a multipart trace of successful part uploads, every UploadPart request succeeded. */
  lemma TraceSucceeded(svc: Service, calls: seq<Call>, id: string, parts: seq<Bytes>)
    requires PartTrace(calls, id, parts) && AllPartsOk(svc, id, parts)
    ensures PartsSucceeded(svc, calls)
  {
    forall j | 0 <= j < |calls| && calls[j].UploadPart?
      ensures svc.uploadPart(calls[j].uploadId, calls[j].number, calls[j].data).Ok?
    {
      assert calls[j] == UploadPart(id, j, parts[j - 1]);
    }
  }

  /** The `try` block and the `except` branch of `put_object` for parts
      already read: the requests sent and the outcome, with at most one abort,
      sent last. */
  method UploadParts(parts: seq<Bytes>, count: nat, short: Option<Error>, parallel: nat,
                     arrival: seq<nat>, svc: Service)
      returns (r: Result<string>, calls: seq<Call>)
    requires svc.create.Ok? ==> svc.create.value != ""
    requires count >= 1 && |parts| <= count
    requires short.None? <==> |parts| == count
    ensures count == 1 && short.None? ==> calls == [PutWhole(parts[0])] && r == EtagOf(svc.put(parts[0]))
    ensures !(count == 1 && short.None?) ==> forall j :: 0 <= j < |calls| ==> !calls[j].PutWhole?
    ensures r.Ok? ==> PartsSucceeded(svc, calls)
    ensures CreateUpload !in calls ==> forall j :: 0 <= j < |calls| ==> !calls[j].AbortUpload?
    ensures forall j :: 0 <= j < |calls| - 1 ==> !calls[j].AbortUpload?
    ensures r.Err? && CreateUpload in calls && svc.create.Ok? ==>
      calls[|calls| - 1] == AbortUpload(svc.create.value)
    ensures r.Ok? ==> short.None? && forall j :: 0 <= j < |calls| ==> !calls[j].AbortUpload?
    ensures r.Ok? && CreateUpload in calls ==>
      && svc.create.Ok?
      && calls == [CreateUpload] + UploadCalls(svc.create.value, parts)
                 + [CompleteUpload(svc.create.value, CompletedParts(svc, svc.create.value, parts))]
      && UploadedData(calls) == parts
      && calls[|calls| - 1] == CompleteUpload(svc.create.value, CompletedParts(svc, svc.create.value, parts))
      && r == svc.complete(svc.create.value, CompletedParts(svc, svc.create.value, parts))
    ensures r.Err? && |calls| >= 1 && calls[|calls| - 1].AbortUpload? && svc.abort(calls[|calls| - 1].uploadId).Some? ==>
      r == Err(svc.abort(calls[|calls| - 1].uploadId).value)
    ensures r.Err? && (|calls| == 0 || !calls[|calls| - 1].AbortUpload? || svc.abort(calls[|calls| - 1].uploadId).None?) ==>
      (short.Some? && r == Err(short.value)) || RaisedBy(r.error, svc, calls)
  {
    var tried, tryCalls, uploadId := TryUpload(parts, count, short, parallel, arrival, svc);
    var out := Rethrow(tried, uploadId, svc);
    r := out.0;
    calls := tryCalls + out.1;
    if count == 1 && short.None? {
      assert calls == [PutWhole(parts[0])];
    } else {
      assert forall j :: 0 <= j < |tryCalls| ==> calls[j] == tryCalls[j];
      if r.Ok? {
        assert tryCalls == calls;
        UploadsTrace(uploadId, parts, |parts|);
        assert parts[..|parts|] == parts;
        CompleteTrace([CreateUpload] + UploadCalls(uploadId, parts), uploadId, parts,
                      CompletedParts(svc, uploadId, parts));
        TraceSucceeded(svc, calls, uploadId, parts);
        UploadedDataOfUploads(uploadId, parts, CompletedParts(svc, uploadId, parts));
      }
    }
    if r.Err? && tried.Err? && !(short.Some? && tried == Err(short.value)) {
      RaisedByExtends(tried.error, svc, tryCalls, out.1);
    }
  }

  /** The parts read from the stream concatenate to the object's bytes. */
  lemma PartsAreObject(data: Bytes, length: int, partSize: nat, partCount: int, parts: seq<Bytes>)
    requires partCount <= 0 ==> partSize > 0 && parts == StreamParts(data, partSize)
    requires partCount > 0 ==> |data| >= length >= 0 && Flatten(parts) == data[..length]
    ensures Flatten(parts) == ObjectBytes(data, length, partCount)
  {
    if partCount <= 0 {
      StreamPartsShape(data, partSize);
    }
  }

  /** A stream is read as a single part exactly when it fits in one part. */
  lemma StreamPartsSingle(data: Bytes, size: nat)
    requires size > 0
    ensures |StreamParts(data, size)| == 1 <==> |data| <= size
  {
  }

  /** True when `put_object` reads the whole object as one part and takes
      the single-part shortcut: the part count is 1 and the stream holds the
      declared length, or the length is unknown and the stream fits in one part. */
  predicate SinglePart(data: Bytes, length: int, partSize: nat, partCount: int) {
    (partCount == 1 && |data| >= length) || (partCount <= 0 && |data| <= partSize)
  }

  /** `put_object` (minio/api.py:1283-1383) on the stream `data`, with the part
      size and count `get_part_info` chose, `parallel` workers, the pool's
      result order `arrival`, and the service's answers `svc`. */
  method PutObject(data: Bytes, length: int, partSize: nat, partCount: int, parallel: nat,
                   arrival: seq<nat>, svc: Service)
      returns (r: Result<string>, calls: seq<Call>)
    requires partCount <= 0 ==> partSize > 0
    requires partCount > 0 ==> 0 <= (partCount - 1) * partSize <= length
    requires svc.create.Ok? ==> svc.create.value != ""
    ensures partCount > 0 && |data| < length ==> r.Err?
    ensures SinglePart(data, length, partSize, partCount) ==>
      calls == [PutWhole(ObjectBytes(data, length, partCount))] && r == EtagOf(svc.put(ObjectBytes(data, length, partCount)))
    ensures !SinglePart(data, length, partSize, partCount) ==> forall j :: 0 <= j < |calls| ==> !calls[j].PutWhole?
    ensures r.Ok? ==> PartsSucceeded(svc, calls)
    ensures CreateUpload !in calls ==> forall j :: 0 <= j < |calls| ==> !calls[j].AbortUpload?
    ensures forall j :: 0 <= j < |calls| - 1 ==> !calls[j].AbortUpload?
    ensures r.Err? && CreateUpload in calls && svc.create.Ok? ==>
      calls[|calls| - 1] == AbortUpload(svc.create.value)
    ensures r.Ok? ==> forall j :: 0 <= j < |calls| ==> !calls[j].AbortUpload?
    ensures r.Ok? && CreateUpload in calls ==>
      && svc.create.Ok?
      && PartsCut(UploadedData(calls), data, length, partSize, partCount)
      && calls == [CreateUpload] + UploadCalls(svc.create.value, UploadedData(calls))
                 + [CompleteUpload(svc.create.value, CompletedParts(svc, svc.create.value, UploadedData(calls)))]
      && Flatten(UploadedData(calls)) == ObjectBytes(data, length, partCount)
      && calls[|calls| - 1] == CompleteUpload(svc.create.value, CompletedParts(svc, svc.create.value, UploadedData(calls)))
      && r == svc.complete(svc.create.value, CompletedParts(svc, svc.create.value, UploadedData(calls)))
    ensures r.Err? && |calls| >= 1 && calls[|calls| - 1].AbortUpload? && svc.abort(calls[|calls| - 1].uploadId).Some? ==>
      r == Err(svc.abort(calls[|calls| - 1].uploadId).value)
    ensures r.Err? && (|calls| == 0 || !calls[|calls| - 1].AbortUpload? || svc.abort(calls[|calls| - 1].uploadId).None?) ==>
      (partCount > 0 && |data| < length && r.error.IOError?) || RaisedBy(r.error, svc, calls)
  {
    var parts, count, short := ReadParts(data, length, partSize, partCount);
    r, calls := UploadParts(parts, count, short, parallel, arrival, svc);
    if partCount <= 0 {
      StreamPartsSingle(data, partSize);
    }
    assert SinglePart(data, length, partSize, partCount) <==> count == 1 && short.None?;
    if short.None? {
      PartsAreObject(data, length, partSize, partCount, parts);
      if count == 1 {
        assert |parts| == 1;
        assert parts == [] + [parts[0]];
        FlattenAppend([], parts[0]);
        assert Flatten(parts) == parts[0];
      }
    }
  }

}
